=== FILE: README.md ===
# Marketing analytics core, modelled in Dafny

This project models the decision logic of a marketing-analytics back end. It
has four parts, each with its own module:

- **Chatbot** (`backend/ml_chatbot.py`) is the chat assistant. It sorts a
  message into one of five intents using an ordered list of keyword rules, the
  first match winning. The handler for that intent writes the answer. The answer
  is streamed as one JSON line per space-separated word, followed by a single
  end marker.
- **Segmentation** and **PersonaMatching** (`ml/segment_customers.py`) segment
  customers:
  - pick a mode (behavior, campaign or engagement) and its pre-trained
    clustering model;
  - min-max normalise the per-cluster averages and score each cluster against
    three personas;
  - match personas to clusters one-to-one, greedily;
  - give every remaining cluster its best persona;
  - report the segments ranked by score.
- **Performance** (`ml/score_performance.py`) scores campaigns:
  - pick a mode (roi, engagement or conversion) and its regressor;
  - predict a score per campaign and derive CTR, conversion rate and cost per
    click with a zero-safe division;
  - report all predictions, the five best under the mode's metric, and the same
    five in the legacy recommendation shape.
- **Content** (`ml/recommend_content.py`) ranks content rows by predicted score.
  It reports the total, the top five and a 25-row table. Load, read and column
  errors are classified into error results.

Some shared vocabulary has its own modules:

- **Common**: optional values, the required-column guard, how a run ends, and
  model-load errors.
- **Text**: ASCII lower-casing, substring search, split and join, and decimal
  rendering.
- **Ranking**: a stable descending sort and the first-k view.

The trained models, the file system, CSV parsing and the pandas group-by are
not modelled. What they yield is an input to the modelled functions:

- `ModelOutputs` for the chatbot;
- `Clustering` and `ClusterStat` for segmentation;
- `Scoring` for performance;
- `LoadOutcome`, `CsvRead` and the file-existence flags for every script.

Python's floats are modelled as `real`, and command-line arguments are given
without the script name.

## Model

| member | source | states |
|---|---|---|
| Common.MissingColumns | ml/score_performance.py:76-78 | the missing columns are exactly the required ones absent from the table, and the list is empty iff every required column is present |
| Common.MissingColumnsInOrder | ml/score_performance.py:76 | the missing list keeps the order of the required list: strictly increasing positions of the required list spell it out, and every position holding an absent column is one of them |
| Text.SplitCount | backend/ml_chatbot.py:246 | splitting on a separator yields one more piece than the separator occurs |
| Text.JoinSplit | backend/ml_chatbot.py:246 | joining the pieces of `split(sep)` with `sep` gives back the original string |
| Text.SplitJoin | backend/ml_chatbot.py:246-248 | splitting the join of separator-free pieces gives back the pieces |
| Text.ContainsAt | backend/ml_chatbot.py:135 | the substring test `w in s` holds iff `w` occurs at some position of `s` |
| Text.NatToStringInjective | ml/score_performance.py:95 | distinct row positions render as distinct decimal strings |
| Ranking.SortDesc | ml/segment_customers.py:259 | the sorted list is a permutation of the input and is non-increasing in the key |
| Ranking.SortDescStable | ml/segment_customers.py:259 | for every key value, records carrying it keep their input order (Python's sort is stable) |
| Ranking.TopIsMaximal | ml/score_performance.py:131 | `head(k)` of the descending sort is a sub-multiset of the input, and no record left out has a higher key than a record taken |
| Chatbot.AnalyzeIntentIsFirstMatch | backend/ml_chatbot.py:130-151 | a message gets intent `i` iff the rule of `i` fires on the lower-cased message and no earlier rule fires (general fires always) |
| Chatbot.NoKeywordIsGeneral | backend/ml_chatbot.py:150-151 | a message naming no keyword of any rule is a general query |
| Chatbot.RoiOutranksCampaign | backend/ml_chatbot.py:135-140 | a message containing both "roi" and "campaign" fires the content rule too but is classified as performance |
| Chatbot.IntentIgnoresCase | backend/ml_chatbot.py:132 | a message and its lower-cased form get the same intent |
| Chatbot.ClassifyGeneralIsFirstMatch | backend/ml_chatbot.py:217-230 | greeting, capabilities, thanks and introduction are each chosen iff their own words occur and no earlier kind's words do |
| Chatbot.GreetingInsideWord | backend/ml_chatbot.py:221 | "hi" is a substring test, so any general query containing "this" gets the greeting |
| Chatbot.HandlePerformance | backend/ml_chatbot.py:168-187 | without metrics the answer is the fixed invitation; with metrics it starts with the fixed header and ends with the fixed footer, and with no prediction available it is exactly header plus footer |
| Chatbot.PerformanceBullets | backend/ml_chatbot.py:176-184 | with metrics, and a number format that writes no bullet sign, the text between header and footer holds exactly one bullet per model that answered; each answered model's line, with its formatted value, occurs after the header, in the order ROAS, conversion rate, CTR |
| Chatbot.ScoreBand | backend/ml_chatbot.py:194 | the band is `Excellent` iff score > 7, `Good` iff 5 < score <= 7, `Moderate` iff score <= 5 (printed by `BandText` as "excellent", "good", "moderate") |
| Chatbot.ScoreBandMonotone | backend/ml_chatbot.py:194 | a higher content score never gets a lower band |
| Chatbot.HandleContent | backend/ml_chatbot.py:189-196 | without content metrics in the context, or without a score from the model, the answer is the fixed content explanation |
| Chatbot.ContentAnswerNamesBand | backend/ml_chatbot.py:191-194 | with content metrics and a score, the answer contains "This indicates <band> performance" for the band of that very score |
| Chatbot.PersonaLabel | backend/ml_chatbot.py:124-125 | cluster labels 0, 1 and 2 name the three personas; any other label `k` gives "Segment k"; the name is never empty |
| Chatbot.DescriptionOfLabel | backend/ml_chatbot.py:203-208 | the "unique customer group" description is given exactly to labels other than 0, 1 and 2 |
| Chatbot.HandleSegmentation | backend/ml_chatbot.py:198-211 | without a customer in the context, or without a cluster label, the answer is the fixed segmentation explanation |
| Chatbot.SegmentationAnswerNamesPersona | backend/ml_chatbot.py:200-209 | with a customer and a label, the answer contains "**<persona>** - <description>" for the persona of that very label |
| Chatbot.ResponseDependsOnIntent | backend/ml_chatbot.py:153-166 | two messages of the same intent get the same answer, unless the intent is general, where the lower-cased text decides |
| Chatbot.CannedAnswerIdentifiesIntent | backend/ml_chatbot.py:153-230 | without context, equal answers imply equal intents (and equal general kinds): the canned texts are pairwise distinct |
| Chatbot.StreamContract | backend/ml_chatbot.py:246-251 | the stream is one word line per space-separated piece, then exactly one end marker, which is last; the words carry no spaces, and joining them with spaces gives back the answer |
| Chatbot.ChatMain | backend/ml_chatbot.py:233-251 | no message gives the single error line with exit status 1; a context that is not valid JSON, or one whose lookup by the intent's handler raises, ends with status 1 and no output; otherwise exit status 0 and the output is exactly the word-by-word stream of the answer `GenerateResponse` gives for the context's keys, which ends with its only end marker and whose words join back to that answer |
| Chatbot.NonObjectContextIsIgnoredOrFatal | backend/ml_chatbot.py:168-201 | an object context, or none, never makes the script fail; a context that is not an object either makes it fail or leaves the answer the one given without context |
| Chatbot.NonObjectContextCrashesPerformanceQuery | backend/ml_chatbot.py:170-171 | a performance query fails with the context `["metrics"]` (the key is in the array, which cannot be indexed by it) and with `5` (`in` on a number raises) |
| Segmentation.ParseMode | ml/segment_customers.py:101-103 | the lower-cased argument names the mode when it is one of the three names; an absent or unknown mode is behavior |
| Segmentation.ModeModelsAreCovered | ml/segment_customers.py:14-41 | a table passing the six-column check has every feature column each mode's model reads, and distinct modes load distinct model files |
| Segmentation.MinMaxNorm | ml/segment_customers.py:51-55 | an equal range gives 0.5; a value inside a proper range maps into [0, 1], to 0 exactly at the minimum and to 1 exactly at the maximum |
| Segmentation.MinMaxNormMonotone | ml/segment_customers.py:51-55 | normalisation over a proper range preserves the order of values |
| Segmentation.MinOf | ml/segment_customers.py:165-169 | the minimum is an element of the list and at most every element |
| Segmentation.MaxOf | ml/segment_customers.py:165-169 | the maximum is an element of the list and at least every element |
| Segmentation.PersonaScoresInUnitInterval | ml/segment_customers.py:182-184 | the three persona scores of normalised averages lie in [0, 1] |
| Segmentation.ClusterScores | ml/segment_customers.py:172-190 | one score triple per cluster, every persona score in [0, 1] |
| Segmentation.Percentage | ml/segment_customers.py:131 | of a non-empty table a cluster's share times the table size is 100 times the cluster size, so it lies in [0, 100]; of an empty table it is 0 |
| Segmentation.BuildSegments | ml/segment_customers.py:232-256 | one segment per cluster, in cluster order, with the cluster's label, count and six averages and its share `Percentage(count, total)`; a matched cluster carries the persona it was matched to, any other "gift"; each segment carries its persona's key, name and score; normalised scores give segment scores in [0, 1], and shares of a non-empty table lie in [0, 100] |
| Segmentation.SegmentClusters | ml/segment_customers.py:154-265 | no clusters give an empty report with total 0; otherwise the segments are a permutation of the built segments, sorted by descending score, with every score in [0, 1] |
| Segmentation.SegmentClustersOrderAndDistinctness | ml/segment_customers.py:258-259 | segments of equal score keep cluster order; with at most three clusters no two segments share a persona |
| Segmentation.SegmentMain | ml/segment_customers.py:95-123 | each guard in turn (no path, missing file, missing columns, missing model files, clustering error) gives its error; an unreadable CSV escapes; a report is produced iff every guard passes, and it is the persona matching and ranking of the clusters over the table's rows |
| PersonaMatching.ArgMax | ml/segment_customers.py:228 | `max(scores, key=scores.get)`: a persona of highest score, the first in key order among equals |
| PersonaMatching.BestPick | ml/segment_customers.py:200-215 | the scan's choice is an open pair scoring above -1 and at least every open pair, strictly above every open pair scanned earlier; no choice iff no open pair scores above -1 |
| PersonaMatching.Greedy | ml/segment_customers.py:197-221 | the greedy phase keeps a one-to-one matching of existing clusters and stops only when all clusters are matched, all personas are used, or no open pair scores above -1 |
| PersonaMatching.GreedyKeepsPicks | ml/segment_customers.py:220-221 | a pair once assigned by the greedy phase is never revised |
| PersonaMatching.GreedyAssignsMinOfClustersAndPersonas | ml/segment_customers.py:197-221 | with scores above -1 the greedy phase matches exactly min(number of clusters, 3) clusters |
| PersonaMatching.MatchingSize | ml/segment_customers.py:220-221 | a one-to-one matching uses as many personas as it matches clusters |
| PersonaMatching.Complete | ml/segment_customers.py:223-229 | the completion pass keeps every greedy pair and gives each unmatched cluster its highest-scoring persona |
| PersonaMatching.Assign | ml/segment_customers.py:192-229 | every cluster position, and nothing else, receives a persona |
| PersonaMatching.AssignContract | ml/segment_customers.py:192-235 | the default persona is never needed; greedy pairs are kept and pairwise distinct; every other cluster gets its best persona |
| PersonaMatching.FewClustersGetDistinctPersonas | ml/segment_customers.py:197-229 | with at most three clusters and scores above -1, all clusters get distinct personas |
| Performance.SafeDiv | ml/score_performance.py:22-23 | a zero denominator gives 0; otherwise the quotient times the denominator is the numerator |
| Performance.ParseMode | ml/score_performance.py:60-62 | the lower-cased argument names the mode when it is one of the three names; an absent or unknown mode is roi |
| Performance.ModesAreDistinguished | ml/score_performance.py:26-35 | distinct modes load distinct model files and report distinct metric names |
| Performance.LoadModel | ml/score_performance.py:26-52 | loading succeeds iff the files exist and unpickling succeeds, yielding the mode's metric name; missing files, a version mismatch and other value or type errors each give their message; any other exception escapes |
| Performance.CampaignIds | ml/score_performance.py:92-96 | ids are the `campaign_id` column when present, otherwise the row positions rendered in decimal |
| Performance.DefaultIdsDistinct | ml/score_performance.py:95 | without a `campaign_id` column no two campaigns share an id |
| Performance.SafeQuotientUnique | ml/score_performance.py:22-23 | the zero-safe quotient is determined by its numerator and denominator, so stating it fixes a value |
| Performance.Predict | ml/score_performance.py:99-120 | the record carries the given campaign id; ROAS equals the predicted score; CTR, conversion rate and cost per click are the zero-safe quotients of clicks/impressions, conversions/clicks and spend/clicks (0 for a zero denominator) |
| Performance.Predictions | ml/score_performance.py:90-120 | one record per position of the shorter of rows and scores; the record at a position has that position's id and score and the zero-safe rates of that position's row |
| Performance.TopCampaigns | ml/score_performance.py:123-131 | at most five predictions, taken from the predictions, non-increasing in the mode's metric (ROAS score, CTR or conversion rate) |
| Performance.TopCampaignsAreBest | ml/score_performance.py:131 | no prediction left out of the top list ranks above one in it |
| Performance.Recommendations | ml/score_performance.py:147-155 | one recommendation per top campaign, same order, same id and ROAS, with the fixed suggestion |
| Performance.RoiRecommendationsRanked | ml/score_performance.py:123-155 | in roi mode the recommendations are ordered by descending predicted ROAS |
| Performance.Report | ml/score_performance.py:157-165 | the report carries the mode, its metric name and the row count, its predictions are the records of the rows' ids, rows and scores, and its top lists are the top campaigns and their recommendations |
| Performance.PerformanceMain | ml/score_performance.py:55-131 | each guard in order (no path, missing file, model load, unreadable CSV, missing columns, scaling, prediction) gives its message; no prediction at all makes the sort of an empty frame raise; otherwise the result is the report over the table's rows and the mode's scores |
| Content.LoadFailure | ml/recommend_content.py:14-32 | no error iff the model loaded; a missing file and a version mismatch give their error and a solution; any other error gives `Failed to load model: …` with no solution |
| Content.SolutionOnlyForMissingFileOrMismatch | ml/recommend_content.py:17-32 | a load error offers a solution iff the file is missing or the message names a version mismatch |
| Content.Rank | ml/recommend_content.py:58-74 | total is the row count; the table is at most 25 rows taken from the input, non-increasing in score; the top picks are the first min(5, n) table rows without their content id |
| Content.TableIsBest | ml/recommend_content.py:58-68 | no row left out of the table scores above a row in it; with at most 25 rows the table is all of them |
| Content.RecommendContent | ml/recommend_content.py:12-74 | load, read and column errors are returned as error results; a ranking is returned iff the model loaded, the table has the feature and display columns and one score per row, and it is the ranking of the rows paired with their scores; an empty table gives empty lists and total 0 |
| Content.ContentMain | ml/recommend_content.py:77-84 | a missing path is the only error exit; with a path the result is that of `recommend_content`, so a failed load always gives an error result |

## Left out

- Rounding. The source rounds scores, percentages, averages and metrics with
  `round(x, 2|3|4)`. The model keeps exact values.
- Segmentation.SegmentClusters sorts on the exact persona score, while the
  source sorts on the score rounded to three decimals. Two segments whose
  scores differ only after the third decimal may come out in the other order.
- Performance.TopCampaigns and Content.Rank make no claim about the order of
  ties, because pandas `sort_values` is not stable. The model sorts stably,
  which is one of the orders pandas may produce.
- Number formatting in chat answers (`{x:.2f}`) is a parameter, `Format`.
- Lower-casing covers only ASCII letters. Python's `str.lower` is full Unicode.
- Trained models:
  - Unpickling, scaling and prediction are inputs (`LoadOutcome`, `Scoring`,
    `Clustering`, the content score list).
  - The chatbot's model calls (`predict_performance`, `recommend_content`,
    `segment_customer` apart from its persona map) are inputs (`ModelOutputs`).
- The file system is modelled only as flags saying whether files exist. Reading
  the CSV is an input, `CsvRead`.
- The per-cluster `groupby` and `mean` are inputs (`ClusterStat`). Clusters are
  identified by their position in ascending label order, which matches
  `groupby`'s distinct sorted labels.
- JSON:
  - Parsing the chat context is an input: Chatbot.ChatMain takes what
    `json.loads` yields, or `None` when the text is not valid JSON. Of an array
    only its string elements are kept, and of a number or boolean only whether
    it is truthy: nothing else about them decides the run.
  - JSON encoding of the output is not modelled.
- Floating-point behaviour (NaN, infinities, `float()` conversions) is not
  modelled: scores are reals.
- Training scripts (`ml/train_*.py`) are not part of this model. They are
  wrappers around scikit-learn training and file writes.
- A column of content rows named `predicted_score` in the input is overwritten
  by the source. The model always pairs rows with the model's scores, which
  has the same effect.

=== FILE: chatbot.dfy ===
/**
 The chat assistant: classifies a message into one of five intents by an
 ordered list of keyword rules, answers it with the handler of that intent,
 and streams the answer word by word followed by one end-of-stream marker.

 The trained models the assistant consults are not modelled; what they
 returned for this request (or `None` when a model is absent or raised) is
 an input, `ModelOutputs`.
 */
module Chatbot {
  import opened Common
  import opened Text

  // ---------------------------------------------------------------------------
  // Intent classification
  // ---------------------------------------------------------------------------

  datatype Intent = Performance | Content | Segmentation | Prediction | General

  const PerformanceWords: seq<string> := ["performance", "roi", "roas", "conversion", "ctr", "engagement"]
  const ContentWords: seq<string> := ["content", "recommend", "suggestion", "campaign", "creative"]
  const SegmentationWords: seq<string> := ["segment", "customer", "persona", "audience", "target"]
  const PredictionWords: seq<string> := ["predict", "forecast", "estimate", "expect"]

  /** The keywords of each intent's rule; the general intent has no rule of its own. */
  function Keywords(i: Intent): seq<string> {
    match i
    case Performance => PerformanceWords
    case Content => ContentWords
    case Segmentation => SegmentationWords
    case Prediction => PredictionWords
    case General => []
  }

  /** The position of each intent's rule in the order the rules are tried. */
  function Priority(i: Intent): nat {
    match i
    case Performance => 0
    case Content => 1
    case Segmentation => 2
    case Prediction => 3
    case General => 4
  }

  /**
   The rule of intent `i` fires on `message`: some keyword of `i` occurs in
   the lower-cased message. The general intent's catch-all always fires.
   */
  predicate Fires(message: string, i: Intent) {
    i == General || ContainsAny(Lower(message), Keywords(i))
  }

  /** The intent of a chat message: the first rule, in priority order, that fires. */
  function AnalyzeIntent(message: string): Intent {
    var msg := Lower(message);
    if ContainsAny(msg, PerformanceWords) then Performance
    else if ContainsAny(msg, ContentWords) then Content
    else if ContainsAny(msg, SegmentationWords) then Segmentation
    else if ContainsAny(msg, PredictionWords) then Prediction
    else General
  }

  /**
   First match wins: a message gets intent `i` exactly when the rule of `i`
   fires and no rule tried before it does.
   */
  lemma AnalyzeIntentIsFirstMatch(message: string, i: Intent)
    ensures AnalyzeIntent(message) == i
        <==> Fires(message, i) && forall j :: Priority(j) < Priority(i) ==> !Fires(message, j)
  {
    if Fires(message, i) && forall j :: Priority(j) < Priority(i) ==> !Fires(message, j) {
      match i
      case Performance =>
      case Content => assert !Fires(message, Performance);
      case Segmentation =>
        assert !Fires(message, Performance) && !Fires(message, Content);
      case Prediction =>
        assert !Fires(message, Performance) && !Fires(message, Content) && !Fires(message, Segmentation);
      case General =>
        assert !Fires(message, Performance) && !Fires(message, Content);
        assert !Fires(message, Segmentation) && !Fires(message, Prediction);
    }
  }

  /** A message that mentions no keyword of any rule is a general query. */
  lemma NoKeywordIsGeneral(message: string)
    requires forall i :: i != General ==> !ContainsAny(Lower(message), Keywords(i))
    ensures AnalyzeIntent(message) == General
  {
    assert !ContainsAny(Lower(message), Keywords(Performance));
    assert !ContainsAny(Lower(message), Keywords(Content));
    assert !ContainsAny(Lower(message), Keywords(Segmentation));
    assert !ContainsAny(Lower(message), Keywords(Prediction));
  }

  /**
   The performance rule outranks the content rule: a message naming both
   "roi" and "campaign" fires both rules and is a performance query.
   */
  lemma RoiOutranksCampaign(message: string)
    requires Contains(Lower(message), "roi") && Contains(Lower(message), "campaign")
    ensures Fires(message, Content)
    ensures AnalyzeIntent(message) == Performance
  {
    assert PerformanceWords[1] == "roi";
    assert ContentWords[3] == "campaign";
  }

  /** Matching ignores case: a message and its lower-cased form get the same intent. */
  lemma IntentIgnoresCase(message: string)
    ensures AnalyzeIntent(Lower(message)) == AnalyzeIntent(message)
  {
    LowerIdempotent(message);
  }

  // ---------------------------------------------------------------------------
  // General queries
  // ---------------------------------------------------------------------------

  /** The four answers to a general query. */
  datatype GeneralKind = Greeting | Capabilities | Thanks | Introduction

  const GreetingWords: seq<string> := ["hello", "hi", "hey"]
  const HelpWords: seq<string> := ["help", "what can you do", "capabilities"]

  /** The kind of answer a general query gets, by the same first-match scheme. */
  function ClassifyGeneral(message: string): GeneralKind {
    var msg := Lower(message);
    if ContainsAny(msg, GreetingWords) then Greeting
    else if ContainsAny(msg, HelpWords) then Capabilities
    else if Contains(msg, "thank") then Thanks
    else Introduction
  }

  /**
   First match wins among the general answers too: each kind is chosen
   exactly when its own words occur and no earlier kind's words do.
   */
  lemma ClassifyGeneralIsFirstMatch(message: string)
    ensures var msg := Lower(message);
      && (ClassifyGeneral(message) == Greeting <==> ContainsAny(msg, GreetingWords))
      && (ClassifyGeneral(message) == Capabilities <==> !ContainsAny(msg, GreetingWords) && ContainsAny(msg, HelpWords))
      && (ClassifyGeneral(message) == Thanks <==>
            !ContainsAny(msg, GreetingWords) && !ContainsAny(msg, HelpWords) && Contains(msg, "thank"))
      && (ClassifyGeneral(message) == Introduction <==>
            !ContainsAny(msg, GreetingWords) && !ContainsAny(msg, HelpWords) && !Contains(msg, "thank"))
  {
  }

  /** "hi" is matched as a substring, so it also fires inside longer words. */
  lemma GreetingInsideWord(message: string)
    requires Contains(Lower(message), "this")
    ensures ClassifyGeneral(message) == Greeting
  {
    var msg := Lower(message);
    ContainsAt(msg, "this");
    var i :| OccursAt(msg, "this", i);
    assert msg[i..i + 4][1] == 'h' && msg[i..i + 4][2] == 'i';
    assert msg[i + 1..i + 3] == "hi";
    assert OccursAt(msg, "hi", i + 1);
    ContainsAt(msg, "hi");
    assert GreetingWords[1] == "hi";
  }

  const GreetingText: string := "Hello! I'm your AI marketing assistant powered by machine learning. I can help you with:\n\U{2022} Campaign performance predictions\n\U{2022} Content recommendations\n\U{2022} Customer segmentation\n\U{2022} ROI forecasting\n\nWhat would you like to analyze today?"
  const CapabilitiesText: string := "I use trained ML models to help with:\n\n1. **Performance Analysis** - Predict ROI, conversions, and engagement\n2. **Content Recommendations** - Suggest best-performing content strategies\n3. **Customer Segmentation** - Identify customer personas for targeting\n4. **Predictive Analytics** - Forecast campaign outcomes\n\nAsk me anything about your marketing data!"
  const ThanksText: string := "You're welcome! Let me know if you need more ML-powered insights for your campaigns."
  const IntroductionText: string := "I'm an AI assistant trained on your marketing data. I can analyze campaigns, predict performance, recommend content, and segment customers using machine learning. How can I help you optimize your marketing?"

  function GeneralText(kind: GeneralKind): string {
    match kind
    case Greeting => GreetingText
    case Capabilities => CapabilitiesText
    case Thanks => ThanksText
    case Introduction => IntroductionText
  }

  /** The answer to a general query. */
  function HandleGeneral(message: string): string {
    GeneralText(ClassifyGeneral(message))
  }

  // ---------------------------------------------------------------------------
  // Model-backed handlers
  // ---------------------------------------------------------------------------

  /**
   What the trained models returned for this request: the three performance
   predictions (ROAS, conversion rate, click-through rate), the content
   score, and the behaviour-segmentation cluster label. `None` stands for a
   model that is absent or raised.
   */
  datatype ModelOutputs = ModelOutputs(
    roi: Option<real>,
    conversion: Option<real>,
    engagement: Option<real>,
    contentScore: Option<real>,
    segmentLabel: Option<int>)

  /** The keys of the request context; a missing context has no keys. */
  type Context = set<string>

  /** Number formatting `{x:.2f}`, supplied by the caller. */
  type Format = real -> string

  const PerformanceHelpText: string := "I can analyze your campaign performance using machine learning! Please provide metrics like impressions, clicks, spend, and conversions, and I'll predict your ROI, conversion rate, and engagement."
  const ContentHelpText: string := "I can recommend content strategies using ML! Our models analyze engagement rates, conversion rates, ROAS, and sample sizes to suggest the best performing content types for your campaigns."
  const SegmentationHelpText: string := "I can segment your customers using machine learning! Provide customer data like spending patterns, order frequency, and engagement metrics, and I'll identify which persona group they belong to for targeted marketing."
  const PredictionText: string := "Our AI can predict:\n\U{2022} Campaign ROI and ROAS\n\U{2022} Conversion rates and CTR\n\U{2022} Customer lifetime value\n\U{2022} Content performance scores\n\nProvide your metrics and I'll run them through our ML models for accurate predictions!"
  const PredictionsHeader: string := "Based on your campaign metrics, here's what our ML model predicts:\n\n"
  const PredictionsFooter: string := "\nThese predictions are based on your historical campaign data and ML analysis."

  /** A rate as a percentage, when there is one. */
  function Percent(rate: Option<real>): Option<real> {
    match rate
    case None => None
    case Some(x) => Some(x * 100.0)
  }

  /** One bullet line for a prediction that is present, nothing otherwise. */
  function PredictionLine(caption: string, value: Option<real>, suffix: string, fmt: Format): string {
    match value
    case None => ""
    case Some(v) => "\U{2022} " + caption + ": " + fmt(v) + suffix + "\n"
  }

  /**
   Answer to a performance query: with metrics in the context, the available
   predictions between a fixed header and footer (nothing between them when
   no model answered); otherwise an invitation to send metrics.
   */
  function HandlePerformance(context: Context, ml: ModelOutputs, fmt: Format): (r: string)
    ensures "metrics" !in context ==> r == PerformanceHelpText
    ensures "metrics" in context ==>
      && |PredictionsHeader| + |PredictionsFooter| <= |r|
      && r[..|PredictionsHeader|] == PredictionsHeader
      && r[|r| - |PredictionsFooter|..] == PredictionsFooter
    ensures "metrics" in context && ml.roi.None? && ml.conversion.None? && ml.engagement.None? ==>
      r == PredictionsHeader + PredictionsFooter
  {
    if "metrics" in context then
      PredictionsHeader
      + PredictionLine("Predicted ROAS", ml.roi, "x", fmt)
      + PredictionLine("Predicted Conversion Rate", Percent(ml.conversion), "%", fmt)
      + PredictionLine("Predicted CTR", Percent(ml.engagement), "%", fmt)
      + PredictionsFooter
    else PerformanceHelpText
  }

  const Bullet: char := '\U{2022}'

  /** How many of the three performance models answered. */
  function AnsweredCount(ml: ModelOutputs): nat {
    (if ml.roi.Some? then 1 else 0) + (if ml.conversion.Some? then 1 else 0) + (if ml.engagement.Some? then 1 else 0)
  }

  /** A prediction line holds one bullet when the prediction is present and none otherwise. */
  lemma LineBullets(caption: string, value: Option<real>, suffix: string, fmt: Format)
    requires Bullet !in caption && Bullet !in suffix
    requires forall x :: Bullet !in fmt(x)
    ensures Count(PredictionLine(caption, value, suffix, fmt), Bullet) == if value.Some? then 1 else 0
  {
    match value
    case None =>
    case Some(v) =>
      var shown := fmt(v);
      var line := PredictionLine(caption, value, suffix, fmt);
      assert line == "\U{2022} " + caption + ": " + shown + suffix + "\n";
      assert Count("\U{2022} ", Bullet) == 1 by {
        assert "\U{2022} "[1..] == " " && Count(" ", Bullet) == 0;
      }
      CountAbsent(caption, Bullet);
      CountAbsent(": ", Bullet);
      CountAbsent(shown, Bullet);
      CountAbsent(suffix, Bullet);
      CountAbsent("\n", Bullet);
      CountConcat("\U{2022} ", caption, Bullet);
      CountConcat("\U{2022} " + caption, ": ", Bullet);
      CountConcat("\U{2022} " + caption + ": ", shown, Bullet);
      CountConcat("\U{2022} " + caption + ": " + shown, suffix, Bullet);
      CountConcat("\U{2022} " + caption + ": " + shown + suffix, "\n", Bullet);
  }

  /**
   With metrics in the context and a number format that writes no bullet
   sign, the text between the fixed header and footer holds one bullet per
   model that answered; the line of each answered model, with its formatted
   value, occurs there, and the lines come in the order ROAS, conversion
   rate, CTR.
   */
  lemma PerformanceBullets(context: Context, ml: ModelOutputs, fmt: Format) returns (roasAt: nat, conversionAt: nat, ctrAt: nat)
    requires "metrics" in context
    requires forall x :: Bullet !in fmt(x)
    ensures var r := HandlePerformance(context, ml, fmt);
      Count(r[|PredictionsHeader|..|r| - |PredictionsFooter|], Bullet) == AnsweredCount(ml)
    ensures ml.roi.Some? ==>
      OccursAt(HandlePerformance(context, ml, fmt), PredictionLine("Predicted ROAS", ml.roi, "x", fmt), roasAt)
    ensures ml.conversion.Some? ==>
      OccursAt(HandlePerformance(context, ml, fmt),
               PredictionLine("Predicted Conversion Rate", Percent(ml.conversion), "%", fmt), conversionAt)
    ensures ml.engagement.Some? ==>
      OccursAt(HandlePerformance(context, ml, fmt), PredictionLine("Predicted CTR", Percent(ml.engagement), "%", fmt), ctrAt)
    ensures |PredictionsHeader| <= roasAt <= conversionAt <= ctrAt
    ensures ml.roi.Some? ==> roasAt < conversionAt
    ensures ml.conversion.Some? ==> conversionAt < ctrAt
  {
    var l1 := PredictionLine("Predicted ROAS", ml.roi, "x", fmt);
    var l2 := PredictionLine("Predicted Conversion Rate", Percent(ml.conversion), "%", fmt);
    var l3 := PredictionLine("Predicted CTR", Percent(ml.engagement), "%", fmt);
    LineBullets("Predicted ROAS", ml.roi, "x", fmt);
    LineBullets("Predicted Conversion Rate", Percent(ml.conversion), "%", fmt);
    LineBullets("Predicted CTR", Percent(ml.engagement), "%", fmt);
    assert HandlePerformance(context, ml, fmt) == PredictionsHeader + l1 + l2 + l3 + PredictionsFooter;
    roasAt, conversionAt, ctrAt := FiveParts(PredictionsHeader, l1, l2, l3, PredictionsFooter, Bullet);
  }

  /** Where the three middle parts of a five-part text start, and how many of a character they hold. */
  lemma FiveParts(h: string, l1: string, l2: string, l3: string, f: string, c: char) returns (at1: nat, at2: nat, at3: nat)
    ensures var r := h + l1 + l2 + l3 + f;
      Count(r[|h|..|r| - |f|], c) == Count(l1, c) + Count(l2, c) + Count(l3, c)
    ensures OccursAt(h + l1 + l2 + l3 + f, l1, at1)
    ensures OccursAt(h + l1 + l2 + l3 + f, l2, at2)
    ensures OccursAt(h + l1 + l2 + l3 + f, l3, at3)
    ensures at1 == |h| && at1 + |l1| == at2 && at2 + |l2| == at3
  {
    var r := h + l1 + l2 + l3 + f;
    assert r[|h|..|r| - |f|] == l1 + l2 + l3;
    CountConcat(l1, l2, c);
    CountConcat(l1 + l2, l3, c);
    at1, at2, at3 := |h|, |h| + |l1|, |h| + |l1| + |l2|;
    assert r[at1..at1 + |l1|] == l1;
    assert r[at2..at2 + |l2|] == l2;
    assert r[at3..at3 + |l3|] == l3;
  }

  /** A string put between two others occurs right after the first. */
  lemma Infix(head: string, mid: string, rest: string) returns (at: nat)
    ensures OccursAt(head + mid + rest, mid, at) && at == |head|
  {
    at := |head|;
    assert (head + mid + rest)[at..at + |mid|] == mid;
  }

  /** The verbal band of a content score out of 10. */
  datatype Band = Excellent | Good | Moderate

  function BandText(b: Band): string {
    match b
    case Excellent => "excellent"
    case Good => "good"
    case Moderate => "moderate"
  }

  /** Bands in their order of merit. */
  function BandRank(b: Band): nat {
    match b
    case Excellent => 2
    case Good => 1
    case Moderate => 0
  }

  function ScoreBand(score: real): (band: Band)
    ensures band == Excellent <==> score > 7.0
    ensures band == Good <==> 5.0 < score <= 7.0
    ensures band == Moderate <==> score <= 5.0
  {
    if score > 7.0 then Excellent else if score > 5.0 then Good else Moderate
  }

  /** The bands rank scores consistently: a higher score never gets a lower band. */
  lemma ScoreBandMonotone(a: real, b: real)
    requires a <= b
    ensures BandRank(ScoreBand(a)) <= BandRank(ScoreBand(b))
  {
  }

  /** Answer to a content query: the model's score and its band, or an explanation. */
  function HandleContent(context: Context, ml: ModelOutputs, fmt: Format): (r: string)
    ensures !("content_metrics" in context && ml.contentScore.Some?) ==> r == ContentHelpText
  {
    if "content_metrics" in context && ml.contentScore.Some? then
      var score := ml.contentScore.value;
      "Our ML model scored this content strategy at " + fmt(score) + "/10. "
      + ("This indicates " + BandText(ScoreBand(score)) + " performance")
      + " potential based on historical data."
    else ContentHelpText
  }

  /**
   With content metrics and a score, the answer names the band of that
   score: "This indicates <band> performance" occurs in it.
   */
  lemma ContentAnswerNamesBand(context: Context, ml: ModelOutputs, fmt: Format) returns (at: nat)
    requires "content_metrics" in context && ml.contentScore.Some?
    ensures OccursAt(HandleContent(context, ml, fmt),
                     "This indicates " + BandText(ScoreBand(ml.contentScore.value)) + " performance", at)
  {
    var score := ml.contentScore.value;
    var head := "Our ML model scored this content strategy at " + fmt(score) + "/10. ";
    var mid := "This indicates " + BandText(ScoreBand(score)) + " performance";
    var rest := " potential based on historical data.";
    at := Infix(head, mid, rest);
  }

  const EcoLuxName: string := "Eco-Lux Loyalists"
  const AspiringName: string := "Aspiring Aesthetes"
  const EcoGiftName: string := "Eco-Gift Shoppers"
  const UniqueGroupText: string := "a unique customer group"

  /** The persona name of a behaviour cluster label; unknown labels are named by number. */
  function PersonaLabel(id: int): (name: string)
    ensures id == 0 ==> name == EcoLuxName
    ensures id == 1 ==> name == AspiringName
    ensures id == 2 ==> name == EcoGiftName
    ensures id !in {0, 1, 2} ==> name == "Segment " + IntToString(id)
    ensures |name| > 0
  {
    if id == 0 then EcoLuxName
    else if id == 1 then AspiringName
    else if id == 2 then EcoGiftName
    else "Segment " + IntToString(id)
  }

  /** The description of a persona name; any other name is "a unique customer group". */
  function PersonaDescription(name: string): string {
    if name == EcoLuxName then "high-value customers who prioritize premium, sustainable products"
    else if name == AspiringName then "trend-conscious buyers seeking aesthetic appeal and quality"
    else if name == EcoGiftName then "occasional buyers focused on eco-friendly gift purchases"
    else UniqueGroupText
  }

  /**
   Only the three known cluster labels get a persona description; every
   other label is described as a unique group.
   */
  lemma DescriptionOfLabel(id: int)
    ensures PersonaDescription(PersonaLabel(id)) == UniqueGroupText <==> id !in {0, 1, 2}
  {
    if id !in {0, 1, 2} {
      var name := PersonaLabel(id);
      assert name[0] == 'S';
      assert EcoLuxName[0] == 'E' && AspiringName[0] == 'A' && EcoGiftName[0] == 'E';
    }
  }

  /** Answer to a segmentation query: the customer's persona, or an explanation. */
  function HandleSegmentation(context: Context, ml: ModelOutputs): (r: string)
    ensures !("customer" in context && ml.segmentLabel.Some?) ==> r == SegmentationHelpText
  {
    if "customer" in context && ml.segmentLabel.Some? then
      var segment := PersonaLabel(ml.segmentLabel.value);
      "Our ML model classifies this customer as: "
      + ("**" + segment + "** - " + PersonaDescription(segment))
      + ". This segmentation helps tailor marketing strategies for better engagement."
    else SegmentationHelpText
  }

  /**
   With a customer and a cluster label, the answer names, in bold, the
   persona of that label, followed by its description.
   */
  lemma SegmentationAnswerNamesPersona(context: Context, ml: ModelOutputs) returns (at: nat)
    requires "customer" in context && ml.segmentLabel.Some?
    ensures var name := PersonaLabel(ml.segmentLabel.value);
      OccursAt(HandleSegmentation(context, ml), "**" + name + "** - " + PersonaDescription(name), at)
  {
    var name := PersonaLabel(ml.segmentLabel.value);
    var head := "Our ML model classifies this customer as: ";
    var mid := "**" + name + "** - " + PersonaDescription(name);
    var rest := ". This segmentation helps tailor marketing strategies for better engagement.";
    at := Infix(head, mid, rest);
  }

  // ---------------------------------------------------------------------------
  // Dispatch
  // ---------------------------------------------------------------------------

  /** The answer to a chat message: the handler of its intent answers it. */
  function GenerateResponse(message: string, context: Context, ml: ModelOutputs, fmt: Format): string {
    match AnalyzeIntent(message)
    case Performance => HandlePerformance(context, ml, fmt)
    case Content => HandleContent(context, ml, fmt)
    case Segmentation => HandleSegmentation(context, ml)
    case Prediction => PredictionText
    case General => HandleGeneral(message)
  }

  /**
   The model-backed handlers read only the context and the model outputs:
   two messages of the same intent get the same answer unless the intent is
   general, where the answer depends on the lower-cased text alone.
   */
  lemma ResponseDependsOnIntent(a: string, b: string, context: Context, ml: ModelOutputs, fmt: Format)
    requires AnalyzeIntent(a) == AnalyzeIntent(b)
    requires AnalyzeIntent(a) != General || Lower(a) == Lower(b)
    ensures GenerateResponse(a, context, ml, fmt) == GenerateResponse(b, context, ml, fmt)
  {
  }

  /**
   Without context, the answer identifies the handler that produced it: the
   canned answers of different intents (and of different general kinds) are
   all distinct.
   */
  lemma CannedAnswerIdentifiesIntent(a: string, b: string, ml: ModelOutputs, fmt: Format)
    requires GenerateResponse(a, {}, ml, fmt) == GenerateResponse(b, {}, ml, fmt)
    ensures AnalyzeIntent(a) == AnalyzeIntent(b)
    ensures AnalyzeIntent(a) == General ==> ClassifyGeneral(a) == ClassifyGeneral(b)
  {
    assert |PerformanceHelpText| == 196 && |ContentHelpText| == 187;
    assert |SegmentationHelpText| == 216 && |PredictionText| == 213;
    assert |GreetingText| == 230 && |CapabilitiesText| == 358;
    assert |ThanksText| == 84 && |IntroductionText| == 206;
  }

  // ---------------------------------------------------------------------------
  // Streaming
  // ---------------------------------------------------------------------------

  /** One JSON line written to standard output. */
  datatype ChatLine = Word(word: string) | Done | Failure(error: string)

  /** The words a line sequence carries before its first end marker. */
  function StreamedWords(lines: seq<ChatLine>): seq<string> {
    if |lines| == 0 || lines[0].Done? then []
    else if lines[0].Word? then [lines[0].word] + StreamedWords(lines[1..])
    else StreamedWords(lines[1..])
  }

  /** Number of end markers in a line sequence. */
  function DoneCount(lines: seq<ChatLine>): nat {
    if |lines| == 0 then 0 else (if lines[0].Done? then 1 else 0) + DoneCount(lines[1..])
  }

  /** The response split on single spaces, one word line per piece, then one end marker. */
  function Stream(response: string): seq<ChatLine> {
    var words := Split(response, ' ');
    seq(|words|, i requires 0 <= i < |words| => Word(words[i])) + [Done]
  }

  lemma {:induction false} WordsBeforeDone(words: seq<string>)
    ensures StreamedWords(seq(|words|, i requires 0 <= i < |words| => Word(words[i])) + [Done]) == words
    ensures DoneCount(seq(|words|, i requires 0 <= i < |words| => Word(words[i])) + [Done]) == 1
  {
    var lines := seq(|words|, i requires 0 <= i < |words| => Word(words[i])) + [Done];
    if |words| > 0 {
      WordsBeforeDone(words[1..]);
      assert lines[1..] == seq(|words[1..]|, i requires 0 <= i < |words[1..]| => Word(words[1..][i])) + [Done];
      assert words == [words[0]] + words[1..];
    } else {
      assert lines == [Done];
    }
  }

  /**
   The streaming contract: the stream is word lines followed by exactly one
   end marker, which comes last; there is one word line per piece of the
   response split on spaces (one more than the response has spaces), and
   joining the streamed words with spaces gives back the response.
   */
  lemma StreamContract(response: string)
    ensures var lines := Stream(response);
      && |lines| == Count(response, ' ') + 2
      && lines[|lines| - 1] == Done
      && DoneCount(lines) == 1
      && (forall i :: 0 <= i < |lines| - 1 ==> lines[i].Word? && ' ' !in lines[i].word)
      && Join(StreamedWords(lines), " ") == response
  {
    var words := Split(response, ' ');
    SplitCount(response, ' ');
    WordsBeforeDone(words);
    JoinSplit(response, ' ');
  }

  /** The outcome of running the chat script: its output lines and exit status. */
  datatype ChatRun = ChatRun(lines: seq<ChatLine>, exitCode: nat)

  /**
   What `json.loads` made of the context argument. Only an object has keys;
   of an array only its string elements matter, since a key is a string.
   */
  datatype ContextValue =
    | JsonObject(keys: set<string>)
    | JsonArray(strings: set<string>)
    | JsonString(text: string)
    | JsonScalar(truthy: bool)   // a number or a boolean
    | JsonNull

  /** The context key the handler of an intent looks up, if it looks one up. */
  function TestedKey(intent: Intent): Option<string> {
    match intent
    case Performance => Some("metrics")
    case Content => Some("content_metrics")
    case Segmentation => Some("customer")
    case Prediction => None
    case General => None
  }

  /**
   Whether `context and key in context` followed by `context[key]` raises:
   `in` on a truthy number or boolean raises, and indexing an array or a
   string by a key it contains raises. An object never raises.
   */
  predicate LookupRaises(context: ContextValue, key: string) {
    match context
    case JsonObject(_) => false
    case JsonArray(strings) => key in strings
    case JsonString(text) => Contains(text, key)
    case JsonScalar(truthy) => truthy
    case JsonNull => false
  }

  /** The keys a handler can find in the context: only an object has any. */
  function ContextKeys(context: ContextValue): Context {
    if context.JsonObject? then context.keys else {}
  }

  /**
   The chat script's entry point. `args` are the command-line arguments
   after the script name: the message, then optionally the JSON context;
   `parsed` is what parsing that context yields (`None` when it is not valid
   JSON). A parse error, or a handler's lookup raising, ends the script with
   a traceback before anything is printed.
   */
  function ChatMain(args: seq<string>, parsed: Option<ContextValue>, ml: ModelOutputs, fmt: Format): (run: ChatRun)
    ensures |args| == 0 ==> run == ChatRun([Failure("No message provided")], 1)
    ensures |args| > 1 && parsed.None? ==> run == ChatRun([], 1)
    ensures |args| > 0 ==>
      var context := if |args| > 1 && parsed.Some? then parsed.value else JsonNull;
      var key := TestedKey(AnalyzeIntent(args[0]));
      && (run.exitCode == 0 <==> (|args| == 1 || parsed.Some?) && !(key.Some? && LookupRaises(context, key.value)))
      && (run.exitCode != 0 ==> run.lines == [])
      && (run.exitCode == 0 ==>
            && run.lines == Stream(GenerateResponse(args[0], ContextKeys(context), ml, fmt))
            && DoneCount(run.lines) == 1 && run.lines[|run.lines| - 1] == Done
            && Join(StreamedWords(run.lines), " ") == GenerateResponse(args[0], ContextKeys(context), ml, fmt))
  {
    if |args| == 0 then ChatRun([Failure("No message provided")], 1)
    else if |args| > 1 && parsed.None? then ChatRun([], 1)
    else
      var context := if |args| > 1 then parsed.value else JsonNull;
      var key := TestedKey(AnalyzeIntent(args[0]));
      if key.Some? && LookupRaises(context, key.value) then ChatRun([], 1)
      else
        var response := GenerateResponse(args[0], ContextKeys(context), ml, fmt);
        StreamContract(response);
        ChatRun(Stream(response), 0)
  }

  /**
   A context that is an object (or no context at all) never makes the script
   fail, and a context that is not an object is either fatal or changes
   nothing: the answer is the one given without context.
   */
  lemma NonObjectContextIsIgnoredOrFatal(message: string, extra: string, value: ContextValue, ml: ModelOutputs, fmt: Format)
    ensures value.JsonObject? ==> ChatMain([message, extra], Some(value), ml, fmt).exitCode == 0
    ensures ChatMain([message], None, ml, fmt).exitCode == 0
    ensures var run := ChatMain([message, extra], Some(value), ml, fmt);
      !value.JsonObject? && run.exitCode == 0 ==>
        Join(StreamedWords(run.lines), " ") == GenerateResponse(message, {}, ml, fmt)
  {
  }

  /**
   A performance query, such as one naming "roi", fails with the context
   `["metrics"]` or `5`: the array contains the key but cannot be indexed by
   it, and `in` on a number raises.
   */
  lemma NonObjectContextCrashesPerformanceQuery(message: string, ml: ModelOutputs, fmt: Format)
    requires Contains(Lower(message), "roi")
    ensures ChatMain([message, "[\"metrics\"]"], Some(JsonArray({"metrics"})), ml, fmt) == ChatRun([], 1)
    ensures ChatMain([message, "5"], Some(JsonScalar(true)), ml, fmt) == ChatRun([], 1)
  {
    assert PerformanceWords[1] == "roi";
    assert AnalyzeIntent(message) == Performance;
  }
}

=== FILE: common.dfy ===
/**
 Shared vocabulary of the analyzer scripts: optional values, the required-column
 guard every script runs on its input table, and the classification of errors
 raised while unpickling a trained model.
 */
module Common {
  import opened Text

  /** A value that may be absent (Python's `None`). */
  datatype Option<+T> = None | Some(value: T)

  /** A column name of an input table. */
  type Column = string

  /**
   The list comprehension `[c for c in required if c not in columns]`: the
   required columns absent from the table, in the order they are required.
   */
  function MissingColumns(required: seq<Column>, columns: set<Column>): (missing: seq<Column>)
    ensures |missing| <= |required|
    ensures forall c :: c in missing <==> c in required && c !in columns
    ensures missing == [] <==> forall i :: 0 <= i < |required| ==> required[i] in columns
  {
    if |required| == 0 then []
    else
      var rest := MissingColumns(required[1..], columns);
      assert forall c :: c in required <==> c == required[0] || c in required[1..] by {
        assert required == [required[0]] + required[1..];
      }
      if required[0] in columns then rest else [required[0]] + rest
  }

  /**
   `idx` lists, in increasing order, positions of `required` that spell out
   `missing`, and every position holding a column absent from `columns` is
   among them.
   */
  ghost predicate SpelledAt(idx: seq<nat>, required: seq<Column>, missing: seq<Column>, columns: set<Column>) {
    && |idx| == |missing|
    && (forall k :: 0 <= k < |idx| ==> idx[k] < |required| && required[idx[k]] == missing[k])
    && (forall k, l :: 0 <= k < l < |idx| ==> idx[k] < idx[l])
    && (forall j :: 0 <= j < |required| && required[j] !in columns ==> j in idx)
  }

  /**
   The missing columns keep the order of `required`: there are strictly
   increasing positions of `required` spelling out the missing list, and
   every position holding an absent column is among them.
   */
  lemma {:induction false} MissingColumnsInOrder(required: seq<Column>, columns: set<Column>) returns (idx: seq<nat>)
    ensures |idx| == |MissingColumns(required, columns)|
    ensures forall k :: 0 <= k < |idx| ==> idx[k] < |required| && required[idx[k]] == MissingColumns(required, columns)[k]
    ensures forall k, l :: 0 <= k < l < |idx| ==> idx[k] < idx[l]
    ensures forall j :: 0 <= j < |required| && required[j] !in columns ==> j in idx
  {
    if |required| == 0 {
      idx := [];
    } else {
      var tail := required[1..];
      var rest := MissingColumnsInOrder(tail, columns);
      var missingTail := MissingColumns(tail, columns);
      assert SpelledAt(rest, tail, missingTail, columns);
      if required[0] in columns {
        assert MissingColumns(required, columns) == missingTail;
        idx := ShiftPositions(required, columns, missingTail, rest, false);
      } else {
        assert MissingColumns(required, columns) == [required[0]] + missingTail;
        idx := ShiftPositions(required, columns, missingTail, rest, true);
      }
    }
  }

  /**
   Positions spelling the missing columns of `required[1..]`, moved up by
   one, spell them within `required`; putting position 0 first adds
   `required[0]` in front.
   */
  lemma ShiftPositions(required: seq<Column>, columns: set<Column>, missingTail: seq<Column>, rest: seq<nat>,
                       withFirst: bool) returns (idx: seq<nat>)
    requires |required| > 0
    requires SpelledAt(rest, required[1..], missingTail, columns)
    requires withFirst <==> required[0] !in columns
    ensures SpelledAt(idx, required, if withFirst then [required[0]] + missingTail else missingTail, columns)
  {
    var tail := required[1..];
    var shifted := seq(|rest|, k requires 0 <= k < |rest| => rest[k] + 1);
    forall k | 0 <= k < |shifted| ensures shifted[k] < |required| && required[shifted[k]] == missingTail[k] {
      assert tail[rest[k]] == required[rest[k] + 1];
    }
    forall j | 1 <= j < |required| && required[j] !in columns ensures j in shifted {
      assert tail[j - 1] == required[j];
      var k :| 0 <= k < |rest| && rest[k] == j - 1;
      assert shifted[k] == j;
    }
    if withFirst {
      var m := [required[0]] + missingTail;
      idx := [0] + shifted;
      forall k | 0 <= k < |idx| ensures idx[k] < |required| && required[idx[k]] == m[k] {
        if k > 0 {
          assert idx[k] == shifted[k - 1] && m[k] == missingTail[k - 1];
        }
      }
      forall k, l | 0 <= k < l < |idx| ensures idx[k] < idx[l] {
        if k > 0 {
          assert idx[k] == shifted[k - 1] && idx[l] == shifted[l - 1];
        }
      }
      forall j | 0 <= j < |required| && required[j] !in columns ensures j in idx {
        if j > 0 {
          assert j in shifted;
        }
      }
    } else {
      idx := shifted;
      forall j | 0 <= j < |required| && required[j] !in columns ensures j in idx {
        assert j != 0;
      }
    }
  }

  /** How reading the input CSV file ended: the table's header and rows, or the parser's error. */
  datatype CsvRead<Row> = Table(columns: set<Column>, rows: seq<Row>) | Unreadable(message: string)

  /** How a run of an analyzer script ends. */
  datatype Outcome<T> =
    | Ok(value: T)             // the JSON report on standard output, exit status 0
    | Error(message: string)   // a JSON object `{"error": message}`, exit status 1
    | Uncaught                 // an exception escapes the script: a traceback, exit status 1

  /** How unpickling a trained model ended. */
  datatype LoadOutcome =
    | Loaded
    | FileMissing                     // FileNotFoundError
    | ValueOrTypeError(message: string) // ValueError or TypeError, with str(e)
    | OtherError(message: string)     // any other exception, with str(e)

  /**
   A load error caused by a scikit-learn version mismatch: its message names
   an incompatible dtype or the missing `missing_go_to_left` tree field.
   */
  predicate IsVersionMismatch(message: string) {
    Contains(message, "incompatible dtype") || Contains(message, "missing_go_to_left")
  }
}

=== FILE: content.dfy ===
/**
 The content-recommendation script: loads the pre-trained content model,
 predicts a priority score for every content row, ranks the rows by that
 score and reports the five best as recommendations and the first
 twenty-five as a table.

 Unpickling and prediction are inputs: what loading ended with and what the
 model predicted. Unlike the other scripts, this one reports load, read and
 column errors as a JSON result with exit status 0.
 */
module Content {
  import opened Common
  import opened Text
  import opened Ranking

  // ---------------------------------------------------------------------------
  // Results
  // ---------------------------------------------------------------------------

  /** One row of the content table, as far as the report shows it. */
  datatype ContentRow = ContentRow(
    contentId: string,
    personaKey: string,
    campaignGoal: string,
    channel: string,
    format: string)

  /** A row with the score the model predicted for it. */
  datatype ScoredRow = ScoredRow(row: ContentRow, predictedScore: real)

  function PredictedScore(s: ScoredRow): real {
    s.predictedScore
  }

  /** A high-level recommendation: a scored row without its content id. */
  datatype Pick = Pick(personaKey: string, campaignGoal: string, channel: string, format: string, predictedScore: real)

  /** What the script reports: an error object, or the ranking. */
  datatype ContentResult =
    | Failure(error: string, solution: Option<string>)
    | Ranked(totalItems: nat, topRecommendations: seq<Pick>, table: seq<ScoredRow>)

  // ---------------------------------------------------------------------------
  // Loading the model
  // ---------------------------------------------------------------------------

  const TrainHint: string := "python ml/train_content_model.py"

  /**
   The error a failed load is reported with; `None` for a model that loaded.
   Every exception while loading is caught.
   */
  function LoadFailure(load: LoadOutcome, modelsDir: string): (r: Option<ContentResult>)
    ensures r.None? <==> load.Loaded?
    ensures r.Some? ==> r.value.Failure?
    ensures load.FileMissing? ==>
      r == Some(Failure("Model file not found at " + modelsDir + "/content_model.pkl", Some("Please run: " + TrainHint)))
    ensures load.ValueOrTypeError? && IsVersionMismatch(load.message) ==>
      r == Some(Failure("Model was trained with an incompatible scikit-learn version",
                        Some("Please retrain the model by running: " + TrainHint)))
    ensures (load.ValueOrTypeError? && !IsVersionMismatch(load.message)) || load.OtherError? ==>
      r == Some(Failure("Failed to load model: " + load.message, None))
  {
    match load
    case Loaded => None
    case FileMissing =>
      Some(Failure("Model file not found at " + modelsDir + "/content_model.pkl", Some("Please run: " + TrainHint)))
    case ValueOrTypeError(message) =>
      if IsVersionMismatch(message) then
        Some(Failure("Model was trained with an incompatible scikit-learn version",
                     Some("Please retrain the model by running: " + TrainHint)))
      else Some(Failure("Failed to load model: " + message, None))
    case OtherError(message) => Some(Failure("Failed to load model: " + message, None))
  }

  /** A load error carries a retrain solution exactly when it names a version mismatch or a missing file. */
  lemma SolutionOnlyForMissingFileOrMismatch(load: LoadOutcome, modelsDir: string)
    requires !load.Loaded?
    ensures LoadFailure(load, modelsDir).value.solution.Some?
        <==> load.FileMissing? || (load.ValueOrTypeError? && IsVersionMismatch(load.message))
  {
  }

  // ---------------------------------------------------------------------------
  // Ranking
  // ---------------------------------------------------------------------------

  /** The numeric columns the model reads. */
  const FeatureColumns: seq<Column> := ["avg_engagement_rate", "avg_conversion_rate", "avg_roas", "sample_size"]

  /** The columns the report shows besides the score. */
  const DisplayColumns: set<Column> := {"content_id", "persona_key", "campaign_goal", "channel", "format"}

  /** Python's `repr` of a list of column names: `['a', 'b']`. */
  function ListRepr(names: seq<string>): string {
    "[" + Join(seq(|names|, i requires 0 <= i < |names| => "'" + names[i] + "'"), ", ") + "]"
  }

  /** Each row paired with its predicted score, in table order. */
  function Score(rows: seq<ContentRow>, scores: seq<real>): (s: seq<ScoredRow>)
    requires |scores| == |rows|
    ensures |s| == |rows|
    ensures forall i :: 0 <= i < |rows| ==> s[i] == ScoredRow(rows[i], scores[i])
  {
    seq(|rows|, i requires 0 <= i < |rows| => ScoredRow(rows[i], scores[i]))
  }

  function PickOf(s: ScoredRow): Pick {
    Pick(s.row.personaKey, s.row.campaignGoal, s.row.channel, s.row.format, s.predictedScore)
  }

  /** The recommendations the given rows make, in the same order. */
  function Picks(rows: seq<ScoredRow>): (ps: seq<Pick>)
    ensures |ps| == |rows|
    ensures forall i :: 0 <= i < |rows| ==> ps[i] == PickOf(rows[i])
  {
    seq(|rows|, i requires 0 <= i < |rows| => PickOf(rows[i]))
  }

  const TopCount: nat := 5
  const TableCount: nat := 25

  /**
   The ranking of scored rows: the total, the first five of the rows sorted
   by descending score as picks, and the first twenty-five as the table.
   */
  function Rank(scored: seq<ScoredRow>): (r: ContentResult)
    ensures r.Ranked?
    ensures r.totalItems == |scored|
    ensures |r.table| == if |scored| < TableCount then |scored| else TableCount
    ensures |r.topRecommendations| == if |scored| < TopCount then |scored| else TopCount
    ensures SortedDesc(r.table, PredictedScore)
    ensures multiset(r.table) <= multiset(scored)
    ensures forall i :: 0 <= i < |r.topRecommendations| ==> r.topRecommendations[i] == PickOf(r.table[i])
  {
    var sorted := SortDesc(scored, PredictedScore);
    var table := Take(sorted, TableCount);
    assert multiset(table) <= multiset(scored) by {
      assert sorted == table + sorted[|table|..];
    }
    assert SortedDesc(table, PredictedScore) by {
      forall i, j | 0 <= i < j < |table| ensures table[i].predictedScore >= table[j].predictedScore {
        assert table[i] == sorted[i] && table[j] == sorted[j];
      }
    }
    Ranked(|scored|, Picks(Take(table, TopCount)), table)
  }

  /**
   The table holds rows of the highest scores: no row left out of it scores
   above one in it. With at most twenty-five rows, the table is all of them.
   */
  lemma TableIsBest(scored: seq<ScoredRow>)
    ensures forall e, t :: e in multiset(scored) - multiset(Rank(scored).table) && t in Rank(scored).table
                           ==> e.predictedScore <= t.predictedScore
    ensures |scored| <= TableCount ==> multiset(Rank(scored).table) == multiset(scored)
  {
    TopIsMaximal(scored, PredictedScore, TableCount);
    if |scored| <= TableCount {
      assert Rank(scored).table == SortDesc(scored, PredictedScore);
    }
  }

  // ---------------------------------------------------------------------------
  // Entry point
  // ---------------------------------------------------------------------------

  /**
   `recommend_content` on a data file. Loading and prediction are parameters:
   how unpickling ended, what reading the CSV yields, and the scores the model
   predicts for the table's rows (`None` when prediction raises). A score
   list of the wrong length and an absent display column raise uncaught.
   */
  function RecommendContent(load: LoadOutcome, modelsDir: string, csv: CsvRead<ContentRow>,
                            prediction: Option<seq<real>>): (r: Outcome<ContentResult>)
    ensures !r.Error?
    ensures !load.Loaded? ==> r == Ok(LoadFailure(load, modelsDir).value)
    ensures load.Loaded? && csv.Unreadable? ==> r == Ok(Failure("Unable to read CSV file: " + csv.message, None))
    ensures load.Loaded? && csv.Table? && MissingColumns(FeatureColumns, csv.columns) != [] ==>
      r == Ok(Failure("Missing expected columns in data: " + ListRepr(MissingColumns(FeatureColumns, csv.columns)), None))
    ensures (r.Ok? && r.value.Ranked?) <==>
      && load.Loaded? && csv.Table? && MissingColumns(FeatureColumns, csv.columns) == []
      && prediction.Some? && |prediction.value| == |csv.rows| && DisplayColumns <= csv.columns
    ensures r.Ok? && r.value.Ranked? ==> r.value == Rank(Score(csv.rows, prediction.value))
    ensures r.Ok? && r.value.Ranked? ==> r.value.totalItems == |csv.rows|
    ensures r.Ok? && r.value.Ranked? && |csv.rows| == 0 ==>
      r.value.topRecommendations == [] && r.value.table == []
  {
    match LoadFailure(load, modelsDir)
    case Some(failure) => Ok(failure)
    case None =>
      match csv
      case Unreadable(message) => Ok(Failure("Unable to read CSV file: " + message, None))
      case Table(columns, rows) =>
        var missing := MissingColumns(FeatureColumns, columns);
        if missing != [] then Ok(Failure("Missing expected columns in data: " + ListRepr(missing), None))
        else match prediction
          case None => Uncaught
          case Some(scores) =>
            if |scores| != |rows| || !(DisplayColumns <= columns) then Uncaught
            else Ok(Rank(Score(rows, scores)))
  }

  /**
   The script run from the command line; `args` excludes the script name.
   Whatever `recommend_content` returns is printed with exit status 0.
   */
  function ContentMain(args: seq<string>, load: LoadOutcome, modelsDir: string, csv: CsvRead<ContentRow>,
                       prediction: Option<seq<real>>): (r: Outcome<ContentResult>)
    ensures |args| == 0 ==> r == Error("Usage: python ml/recommend_content.py path/to/file.csv")
    ensures r.Error? <==> |args| == 0
    ensures |args| > 0 ==> r == RecommendContent(load, modelsDir, csv, prediction)
    ensures |args| > 0 && !load.Loaded? ==> r.Ok? && r.value.Failure?
  {
    if |args| == 0 then Error("Usage: python ml/recommend_content.py path/to/file.csv")
    else RecommendContent(load, modelsDir, csv, prediction)
  }
}

=== FILE: performance.dfy ===
/**
 The campaign-performance script: loads the pre-trained regressor of a
 performance mode, predicts a score for every campaign row, derives the
 observed click-through rate, conversion rate and cost per click, and
 reports every prediction, the five best campaigns under the mode's ranking
 metric, and the same five in the legacy recommendation shape.

 Scaling and prediction are inputs (`Scoring`): the model's arithmetic is
 not part of this model.
 */
module Performance {
  import opened Common
  import opened Text
  import opened Ranking

  // ---------------------------------------------------------------------------
  // Arithmetic
  // ---------------------------------------------------------------------------

  /** Division that yields 0 for a zero denominator. */
  function SafeDiv(num: real, den: real): (q: real)
    ensures den != 0.0 ==> q * den == num
    ensures den == 0.0 ==> q == 0.0
  {
    if den != 0.0 then num / den else 0.0
  }

  // ---------------------------------------------------------------------------
  // Modes and the model of each mode
  // ---------------------------------------------------------------------------

  datatype Mode = Roi | Engagement | Conversion

  function ModeName(m: Mode): string {
    match m
    case Roi => "roi"
    case Engagement => "engagement"
    case Conversion => "conversion"
  }

  const ModeNames: seq<string> := ["engagement", "roi", "conversion"]

  /** The mode argument, lower-cased; an absent or unknown mode is "roi". */
  function ParseMode(arg: Option<string>): (m: Mode)
    ensures arg.Some? && Lower(arg.value) in ModeNames ==> ModeName(m) == Lower(arg.value)
    ensures !(arg.Some? && Lower(arg.value) in ModeNames) ==> m == Roi
  {
    match arg
    case None => Roi
    case Some(a) =>
      var mode := Lower(a);
      if mode == "engagement" then Engagement
      else if mode == "conversion" then Conversion
      else Roi
  }

  /** The file-name prefix of each mode's scaler and model. */
  function ModelPrefix(m: Mode): string {
    match m
    case Roi => "perf_roi"
    case Engagement => "perf_engagement"
    case Conversion => "perf_conversion"
  }

  /** The name of the quantity each mode's model predicts. */
  function MetricName(m: Mode): string {
    match m
    case Roi => "Predicted ROAS"
    case Engagement => "Predicted Engagement (CTR)"
    case Conversion => "Predicted Conversion Rate"
  }

  /** Distinct modes load distinct models and report distinct metrics. */
  lemma ModesAreDistinguished(m: Mode, n: Mode)
    requires m != n
    ensures ModelPrefix(m) != ModelPrefix(n)
    ensures MetricName(m) != MetricName(n)
  {
    assert |ModelPrefix(Roi)| == 8 && |ModelPrefix(Engagement)| == 15 && |ModelPrefix(Conversion)| == 15;
    assert ModelPrefix(Engagement)[5] != ModelPrefix(Conversion)[5];
    assert |MetricName(Roi)| == 14 && |MetricName(Engagement)| == 26 && |MetricName(Conversion)| == 25;
  }

  const RetrainHint: string := "python ml/train_advanced_performance_models.py"

  /**
   Loading a mode's model: `Ok` carries the metric name. Absent files and
   value or type errors while unpickling are reported; any other exception
   (a file-not-found raised by the loader included) is not caught.
   */
  function LoadModel(m: Mode, filesPresent: bool, load: LoadOutcome): (r: Outcome<string>)
    ensures r.Ok? <==> filesPresent && load.Loaded?
    ensures r.Ok? ==> r.value == MetricName(m)
    ensures !filesPresent ==>
      r == Error("Model or scaler not found for mode '" + ModeName(m) + "'. Please run: " + RetrainHint)
    ensures filesPresent && load.ValueOrTypeError? && IsVersionMismatch(load.message) ==>
      r == Error("Model incompatible with current scikit-learn version. Please retrain: " + RetrainHint)
    ensures filesPresent && load.ValueOrTypeError? && !IsVersionMismatch(load.message) ==>
      r == Error("Failed to load model: " + load.message)
    ensures r.Uncaught? <==> filesPresent && (load.FileMissing? || load.OtherError?)
  {
    if !filesPresent then
      Error("Model or scaler not found for mode '" + ModeName(m) + "'. Please run: " + RetrainHint)
    else match load
      case Loaded => Ok(MetricName(m))
      case ValueOrTypeError(message) =>
        if IsVersionMismatch(message) then
          Error("Model incompatible with current scikit-learn version. Please retrain: " + RetrainHint)
        else Error("Failed to load model: " + message)
      case FileMissing => Uncaught
      case OtherError(_) => Uncaught
  }

  // ---------------------------------------------------------------------------
  // Predictions
  // ---------------------------------------------------------------------------

  /** The columns the model reads; every input table must have them. */
  const Features: seq<Column> :=
    ["impressions", "clicks", "spend", "conversions", "sessions", "add_to_carts", "avg_session_duration"]

  /**
   One row of the campaign table, as far as the script reads it beyond the
   model's input: `campaignId` is the row's `campaign_id` rendered as text,
   meaningful only when the table has that column.
   */
  datatype CampaignRow = CampaignRow(campaignId: string, impressions: real, clicks: real, spend: real, conversions: real)

  /** One scored campaign. `predRoas` is the legacy name of `predScore` and always equals it. */
  datatype Prediction = Prediction(
    campaignId: string,
    predScore: real,
    predRoas: real,
    ctr: real,
    conversionRate: real,
    cpc: real)

  /**
   The campaign ids: the `campaign_id` column as text when the table has
   one, otherwise the row positions 0, 1, 2, ... as text.
   */
  function CampaignIds(columns: set<Column>, rows: seq<CampaignRow>): (ids: seq<string>)
    ensures |ids| == |rows|
    ensures "campaign_id" in columns ==> forall i :: 0 <= i < |rows| ==> ids[i] == rows[i].campaignId
    ensures "campaign_id" !in columns ==> forall i :: 0 <= i < |rows| ==> ids[i] == NatToString(i)
  {
    if "campaign_id" in columns then seq(|rows|, i requires 0 <= i < |rows| => rows[i].campaignId)
    else seq(|rows|, i requires 0 <= i => NatToString(i))
  }

  /** Without a `campaign_id` column every campaign gets its own id. */
  lemma DefaultIdsDistinct(columns: set<Column>, rows: seq<CampaignRow>, i: nat, j: nat)
    requires "campaign_id" !in columns
    requires i < j < |rows|
    ensures CampaignIds(columns, rows)[i] != CampaignIds(columns, rows)[j]
  {
    NatToStringInjective(i, j);
  }

  /** `q` is the zero-safe quotient of `num` by `den`: their exact quotient, or 0 for a zero denominator. */
  predicate IsSafeQuotient(q: real, num: real, den: real) {
    if den != 0.0 then q * den == num else q == 0.0
  }

  /** A zero-safe quotient is determined by its numerator and denominator. */
  lemma SafeQuotientUnique(a: real, b: real, num: real, den: real)
    requires IsSafeQuotient(a, num, den) && IsSafeQuotient(b, num, den)
    ensures a == b
  {
  }

  /**
   The record a row and its predicted score make: the row's campaign id, the
   score under both its names, and the observed click-through rate,
   conversion rate and cost per click.
   */
  predicate RecordOf(p: Prediction, id: string, row: CampaignRow, score: real) {
    && p.campaignId == id
    && p.predScore == score && p.predRoas == score
    && IsSafeQuotient(p.ctr, row.clicks, row.impressions)
    && IsSafeQuotient(p.conversionRate, row.conversions, row.clicks)
    && IsSafeQuotient(p.cpc, row.spend, row.clicks)
  }

  /** The prediction record of one row and its predicted score. */
  function Predict(id: string, row: CampaignRow, score: real): (p: Prediction)
    ensures p.campaignId == id
    ensures p.predRoas == p.predScore == score
    ensures IsSafeQuotient(p.ctr, row.clicks, row.impressions)
    ensures IsSafeQuotient(p.conversionRate, row.conversions, row.clicks)
    ensures IsSafeQuotient(p.cpc, row.spend, row.clicks)
  {
    Prediction(id, score, score, SafeDiv(row.clicks, row.impressions),
               SafeDiv(row.conversions, row.clicks), SafeDiv(row.spend, row.clicks))
  }

  /**
   One prediction per row and predicted score, paired up position by
   position; the shorter of the two lists decides how many there are.
   */
  function Predictions(ids: seq<string>, rows: seq<CampaignRow>, scores: seq<real>): (ps: seq<Prediction>)
    requires |ids| == |rows|
    ensures |ps| == if |rows| < |scores| then |rows| else |scores|
    ensures forall i :: 0 <= i < |ps| ==> RecordOf(ps[i], ids[i], rows[i], scores[i])
  {
    var n := if |rows| < |scores| then |rows| else |scores|;
    seq(n, i requires 0 <= i < n => Predict(ids[i], rows[i], scores[i]))
  }

  // ---------------------------------------------------------------------------
  // Ranking
  // ---------------------------------------------------------------------------

  /** The metric each mode ranks campaigns by. */
  function SortKey(m: Mode): Prediction -> real {
    match m
    case Roi => (p: Prediction) => p.predScore
    case Engagement => (p: Prediction) => p.ctr
    case Conversion => (p: Prediction) => p.conversionRate
  }

  const TopCount: nat := 5

  /**
   The five predictions ranking highest under the mode's metric, best
   first; fewer when there are fewer predictions.
   */
  function TopCampaigns(m: Mode, ps: seq<Prediction>): (top: seq<Prediction>)
    ensures |top| == if |ps| < TopCount then |ps| else TopCount
    ensures multiset(top) <= multiset(ps)
    ensures SortedDesc(top, SortKey(m))
  {
    var sorted := SortDesc(ps, SortKey(m));
    TopIsMaximal(ps, SortKey(m), TopCount);
    Take(sorted, TopCount)
  }

  /** No prediction left out of the top list ranks above one in it. */
  lemma TopCampaignsAreBest(m: Mode, ps: seq<Prediction>)
    ensures forall e, t :: e in multiset(ps) - multiset(TopCampaigns(m, ps)) && t in TopCampaigns(m, ps)
                           ==> SortKey(m)(e) <= SortKey(m)(t)
  {
    TopIsMaximal(ps, SortKey(m), TopCount);
  }

  /** The legacy shape of a top campaign. */
  datatype Recommendation = Recommendation(campaignId: string, predRoas: real, suggestion: string)

  const Suggestion: string := "Prioritise this campaign based on the selected performance mode."

  /** The top campaigns restated as recommendations, in the same order. */
  function Recommendations(top: seq<Prediction>): (recs: seq<Recommendation>)
    ensures |recs| == |top|
    ensures forall i :: 0 <= i < |top| ==>
      recs[i].campaignId == top[i].campaignId && recs[i].predRoas == top[i].predRoas && recs[i].suggestion == Suggestion
  {
    seq(|top|, i requires 0 <= i < |top| => Recommendation(top[i].campaignId, top[i].predRoas, Suggestion))
  }

  /**
   In the ROI mode the recommendations are ranked by their own predicted
   ROAS, since ROAS and the ranking score are the same value.
   */
  lemma RoiRecommendationsRanked(ps: seq<Prediction>)
    requires forall i :: 0 <= i < |ps| ==> ps[i].predRoas == ps[i].predScore
    ensures var recs := Recommendations(TopCampaigns(Roi, ps));
      forall i, j :: 0 <= i < j < |recs| ==> recs[i].predRoas >= recs[j].predRoas
  {
    var top := TopCampaigns(Roi, ps);
    forall i | 0 <= i < |top| ensures top[i].predRoas == top[i].predScore {
      assert top[i] in multiset(ps);
    }
  }

  datatype PerformanceReport = PerformanceReport(
    mode: string,
    metricName: string,
    totalCampaigns: nat,
    predictions: seq<Prediction>,
    topCampaigns: seq<Prediction>,
    topRecommendations: seq<Recommendation>)

  /** The report over the table's rows and the model's predicted scores. */
  function Report(m: Mode, metricName: string, columns: set<Column>, rows: seq<CampaignRow>, scores: seq<real>)
    : (r: PerformanceReport)
    ensures r.mode == ModeName(m) && r.metricName == metricName
    ensures r.totalCampaigns == |rows|
    ensures r.predictions == Predictions(CampaignIds(columns, rows), rows, scores)
    ensures |r.predictions| <= |rows| && |r.predictions| <= |scores|
    ensures r.topCampaigns == TopCampaigns(m, r.predictions)
    ensures r.topRecommendations == Recommendations(r.topCampaigns)
  {
    var ps := Predictions(CampaignIds(columns, rows), rows, scores);
    var top := TopCampaigns(m, ps);
    PerformanceReport(ModeName(m), metricName, |rows|, ps, top, Recommendations(top))
  }

  // ---------------------------------------------------------------------------
  // Entry point
  // ---------------------------------------------------------------------------

  /** What scaling the feature columns and predicting with the model yields. */
  datatype Scoring =
    | Scored(scores: seq<real>)
    | ScalingFailed(message: string)
    | PredictionFailed(message: string)

  /** The mode a command line asks for; `args` excludes the script name. */
  function ModeArg(args: seq<string>): Mode {
    ParseMode(if |args| >= 2 then Some(args[1]) else None)
  }

  /**
   The performance script's entry point. The file system and the model are
   parameters: whether the CSV file exists, whether the mode's model files
   exist, how unpickling them ends, what reading the CSV yields, and what
   scaling and predicting with each mode's model yields.
   */
  function PerformanceMain(args: seq<string>, csvExists: bool, modelFilesPresent: Mode -> bool,
                           load: Mode -> LoadOutcome, csv: CsvRead<CampaignRow>, scoring: Mode -> Scoring)
    : (r: Outcome<PerformanceReport>)
    ensures |args| == 0 ==> r == Error("No CSV path provided")
    ensures |args| > 0 && !csvExists ==> r == Error("File not found: " + args[0])
    ensures |args| > 0 && csvExists ==>
      var loaded := LoadModel(ModeArg(args), modelFilesPresent(ModeArg(args)), load(ModeArg(args)));
      && (loaded.Error? ==> r == Error(loaded.message))
      && (loaded.Uncaught? ==> r.Uncaught?)
    ensures (|args| > 0 && csvExists && modelFilesPresent(ModeArg(args)) && load(ModeArg(args)).Loaded?
             && csv.Unreadable?) ==> r == Error("Failed to read CSV: " + csv.message)
    ensures (|args| > 0 && csvExists && modelFilesPresent(ModeArg(args)) && load(ModeArg(args)).Loaded?
             && csv.Table? && MissingColumns(Features, csv.columns) != []) ==>
      r == Error("Missing columns: " + Join(MissingColumns(Features, csv.columns), ", "))
    ensures (|args| > 0 && csvExists && modelFilesPresent(ModeArg(args)) && load(ModeArg(args)).Loaded?
             && csv.Table? && MissingColumns(Features, csv.columns) == [] && !scoring(ModeArg(args)).Scored?) ==>
      r == Error((if scoring(ModeArg(args)).ScalingFailed? then "Scaling failed: " else "Model prediction failed: ")
                 + scoring(ModeArg(args)).message)
    ensures (|args| > 0 && csvExists && modelFilesPresent(ModeArg(args)) && load(ModeArg(args)).Loaded?
             && csv.Table? && MissingColumns(Features, csv.columns) == [] && scoring(ModeArg(args)).Scored?
             && (|csv.rows| == 0 || |scoring(ModeArg(args)).scores| == 0)) ==> r.Uncaught?
    ensures r.Ok? <==>
      && |args| > 0 && csvExists
      && modelFilesPresent(ModeArg(args)) && load(ModeArg(args)).Loaded?
      && csv.Table? && MissingColumns(Features, csv.columns) == []
      && scoring(ModeArg(args)).Scored?
      && |csv.rows| > 0 && |scoring(ModeArg(args)).scores| > 0
    ensures r.Ok? ==>
      r.value == Report(ModeArg(args), MetricName(ModeArg(args)), csv.columns, csv.rows, scoring(ModeArg(args)).scores)
    ensures r.Ok? ==>
      && |r.value.predictions| > 0
      && r.value.mode == ModeName(ModeArg(args))
      && r.value.metricName == MetricName(ModeArg(args))
      && r.value.totalCampaigns == |csv.rows|
  {
    if |args| == 0 then Error("No CSV path provided")
    else
      var mode := ModeArg(args);
      if !csvExists then Error("File not found: " + args[0])
      else match LoadModel(mode, modelFilesPresent(mode), load(mode))
        case Error(message) => Error(message)
        case Uncaught => Uncaught
        case Ok(metricName) =>
          match csv
          case Unreadable(message) => Error("Failed to read CSV: " + message)
          case Table(columns, rows) =>
            var missing := MissingColumns(Features, columns);
            if missing != [] then Error("Missing columns: " + Join(missing, ", "))
            else match scoring(mode)
              case ScalingFailed(message) => Error("Scaling failed: " + message)
              case PredictionFailed(message) => Error("Model prediction failed: " + message)
              case Scored(scores) =>
                // An empty prediction list makes an empty frame, which has no
                // column to sort by: the sort raises.
                if |rows| == 0 || |scores| == 0 then Uncaught
                else Ok(Report(mode, metricName, columns, rows, scores))
  }
}

=== FILE: persona_matching.dfy ===
/**
 Matching the three customer personas to clusters. Each cluster carries a
 score per persona; a greedy phase repeatedly gives the best-scoring free
 persona to the best-scoring unassigned cluster, so no persona and no
 cluster is used twice; a completion pass then gives every cluster still
 unassigned the persona it scores highest on.

 Clusters are identified by their position in the per-cluster statistics;
 grouping by cluster label yields distinct labels, so positions and labels
 correspond one to one.
 */
module PersonaMatching {
  import opened Common

  datatype Persona = EcoLux | Aspiring | Gift

  /** Position of a persona in the key order of the persona table. */
  function Rank(p: Persona): nat {
    match p
    case EcoLux => 0
    case Aspiring => 1
    case Gift => 2
  }

  /** The persona at a position of the key order. */
  function PersonaAt(k: nat): (p: Persona)
    requires k < 3
    ensures Rank(p) == k
  {
    if k == 0 then EcoLux else if k == 1 then Aspiring else Gift
  }

  /** The persona's key in the output. */
  function Key(p: Persona): string {
    match p
    case EcoLux => "eco_lux"
    case Aspiring => "aspiring"
    case Gift => "gift"
  }

  /** The persona's display label. */
  function DisplayName(p: Persona): string {
    match p
    case EcoLux => "Eco-Lux Loyalists"
    case Aspiring => "Aspiring Aesthetes"
    case Gift => "Eco-Gift Shoppers"
  }

  const AllPersonas: set<Persona> := {EcoLux, Aspiring, Gift}

  /** A subset has no more members than its superset. */
  lemma {:induction false} SubsetSize<T>(a: set<T>, b: set<T>)
    requires a <= b
    ensures |a| <= |b|
    decreases |a|
  {
    if a != {} {
      var x :| x in a;
      SubsetSize(a - {x}, b - {x});
    }
  }

  /** A set of personas has at most three members, and fewer leave one out. */
  lemma AtMostThree(used: set<Persona>)
    ensures |used| <= 3
    ensures |used| < 3 ==> exists p :: p !in used
  {
    forall p | p in used ensures p in AllPersonas {
      match p
      case EcoLux =>
      case Aspiring =>
      case Gift =>
    }
    assert |AllPersonas| == 3;
    SubsetSize(used, AllPersonas);
    if |used| < 3 && forall p :: p in used {
      assert AllPersonas <= used;
      SubsetSize(AllPersonas, used);
    }
  }

  /** How well one cluster fits each persona. */
  datatype Scores = Scores(ecoLux: real, aspiring: real, gift: real) {
    function Of(p: Persona): real {
      match p
      case EcoLux => ecoLux
      case Aspiring => aspiring
      case Gift => gift
    }
  }

  /**
   Python's `max(scores, key=scores.get)` over the keys in order: a persona
   of highest score, the first one in key order among equals.
   */
  function ArgMax(s: Scores): (p: Persona)
    ensures forall q :: s.Of(q) <= s.Of(p)
    ensures forall q :: Rank(q) < Rank(p) ==> s.Of(q) < s.Of(p)
  {
    if s.ecoLux >= s.aspiring && s.ecoLux >= s.gift then EcoLux
    else if s.aspiring >= s.gift then Aspiring
    else Gift
  }

  /** Personas matched so far, by cluster position. */
  type Assignment = map<nat, Persona>

  /** A (cluster, persona) pair picked by the greedy phase. */
  datatype Pick = Pick(cluster: nat, persona: Persona)

  /** Cluster `c` is unassigned and persona `p` unused. */
  predicate Open(scores: seq<Scores>, matched: Assignment, used: set<Persona>, c: nat, p: Persona) {
    c < |scores| && c !in matched && p !in used
  }

  /** Position of a pair in the scan order: clusters in order, personas in key order within each. */
  function Order(c: nat, p: Persona): nat {
    3 * c + Rank(p)
  }

  /**
   `best` is what the scan holds after examining the first `k` pairs: the
   first open pair of highest score above `bestScore`'s initial -1.0, or
   nothing if no open pair so far scored above -1.0.
   */
  ghost predicate ScanState(scores: seq<Scores>, matched: Assignment, used: set<Persona>,
                      k: nat, best: Option<Pick>, bestScore: real) {
    && k <= 3 * |scores|
    && bestScore >= -1.0
    && (forall c: nat, p :: Open(scores, matched, used, c, p) && Order(c, p) < k ==> scores[c].Of(p) <= bestScore)
    && (best == None ==> bestScore == -1.0)
    && (best.Some? ==>
          var b := best.value;
          && Open(scores, matched, used, b.cluster, b.persona)
          && Order(b.cluster, b.persona) < k
          && scores[b.cluster].Of(b.persona) == bestScore
          && bestScore > -1.0
          && forall c: nat, p :: Open(scores, matched, used, c, p) && Order(c, p) < Order(b.cluster, b.persona)
               ==> scores[c].Of(p) < bestScore)
  }

  /**
   `pick` is the greedy choice among the open pairs: an open pair whose score
   is above -1.0, at least every open pair's score, and strictly above the
   score of every open pair scanned before it; no pick means no open pair
   scores above -1.0.
   */
  ghost predicate IsGreedyChoice(scores: seq<Scores>, matched: Assignment, used: set<Persona>, pick: Option<Pick>) {
    && (pick == None ==> forall c: nat, p :: Open(scores, matched, used, c, p) ==> scores[c].Of(p) <= -1.0)
    && (pick.Some? ==>
          var b := pick.value;
          && Open(scores, matched, used, b.cluster, b.persona)
          && scores[b.cluster].Of(b.persona) > -1.0
          && (forall c: nat, p :: Open(scores, matched, used, c, p) ==> scores[c].Of(p) <= scores[b.cluster].Of(b.persona))
          && forall c: nat, p :: Open(scores, matched, used, c, p) && Order(c, p) < Order(b.cluster, b.persona)
               ==> scores[c].Of(p) < scores[b.cluster].Of(b.persona))
  }

  /** The k-th pair of the scan order. */
  lemma OrderOf(c: nat, p: Persona, k: nat)
    requires Order(c, p) == k
    ensures c == k / 3 && p == PersonaAt(k % 3)
  {
  }

  /**
   One sweep of the nested scan from pair `k` on, replacing the held pair
   only on a strictly greater score.
   */
  function Scan(scores: seq<Scores>, matched: Assignment, used: set<Persona>,
                k: nat, best: Option<Pick>, bestScore: real): (r: Option<Pick>)
    requires ScanState(scores, matched, used, k, best, bestScore)
    ensures IsGreedyChoice(scores, matched, used, r)
    decreases 3 * |scores| - k
  {
    if k == 3 * |scores| then best
    else
      var c := k / 3;
      var p := PersonaAt(k % 3);
      assert Order(c, p) == k;
      forall c', p' | Order(c', p') == k ensures c' == c && p' == p {
        OrderOf(c', p', k);
      }
      var s := scores[c].Of(p);
      if c !in matched && p !in used && s > bestScore then
        Scan(scores, matched, used, k + 1, Some(Pick(c, p)), s)
      else
        Scan(scores, matched, used, k + 1, best, bestScore)
  }

  /** The pair the greedy phase assigns next, if any. */
  function BestPick(scores: seq<Scores>, matched: Assignment, used: set<Persona>): (r: Option<Pick>)
    ensures IsGreedyChoice(scores, matched, used, r)
  {
    Scan(scores, matched, used, 0, None, -1.0)
  }

  /**
   A partial matching: only existing clusters are matched, the used
   personas are exactly the matched ones, and no persona is given to two
   clusters.
   */
  predicate Matching(scores: seq<Scores>, matched: Assignment, used: set<Persona>) {
    && (forall c :: c in matched ==> c < |scores|)
    && used == matched.Values
    && forall a, b :: a in matched && b in matched && a != b ==> matched[a] != matched[b]
  }

  /** The cluster positions below n. */
  function Below(n: nat): (r: set<nat>)
    ensures forall c: nat :: c in r <==> c < n
    ensures |r| == n
  {
    if n == 0 then {} else Below(n - 1) + {n - 1}
  }

  /** Only existing clusters are matched, so at most all of them. */
  lemma MatchingBounded(scores: seq<Scores>, matched: Assignment)
    requires forall c :: c in matched ==> c < |scores|
    ensures |matched| <= |scores|
  {
    assert matched.Keys <= Below(|scores|);
    SubsetSize(matched.Keys, Below(|scores|));
  }

  /** Adding an open pair to a matching keeps it a matching. */
  lemma MatchingExtend(scores: seq<Scores>, matched: Assignment, used: set<Persona>, pick: Pick)
    requires Matching(scores, matched, used)
    requires Open(scores, matched, used, pick.cluster, pick.persona)
    ensures Matching(scores, matched[pick.cluster := pick.persona], used + {pick.persona})
    ensures |used + {pick.persona}| == |used| + 1
  {
    var next := matched[pick.cluster := pick.persona];
    ValuesAfterAdd(matched, pick.cluster, pick.persona);
    assert used + {pick.persona} == next.Values;
    forall c | c in next ensures c < |scores| {
      if c != pick.cluster {
        assert c in matched;
      }
    }
    assert pick.persona !in used;
    forall a, b | a in next && b in next && a != b ensures next[a] != next[b] {
      if a == pick.cluster {
        assert next[b] == matched[b] && matched[b] in used;
      } else if b == pick.cluster {
        assert next[a] == matched[a] && matched[a] in used;
      } else {
        assert next[a] == matched[a] && next[b] == matched[b];
      }
    }
  }

  /** Adding a new key to a map adds its value to the map's values. */
  lemma ValuesAfterAdd(matched: Assignment, c: nat, p: Persona)
    requires c !in matched
    ensures matched[c := p].Values == matched.Values + {p}
  {
    var next := matched[c := p];
    forall q | q in next.Values ensures q in matched.Values + {p} {
      var a :| a in next && next[a] == q;
      if a != c {
        assert matched[a] == q;
      }
    }
    assert next[c] == p;
    forall q | q in matched.Values ensures q in next.Values {
      var a :| a in matched && matched[a] == q;
      assert next[a] == q;
    }
  }

  /**
   The greedy phase: while some cluster is unassigned and some persona
   unused, assign the greedy choice. It keeps the matching one-to-one and
   stops only when every cluster is matched,
   every persona is used, or no open pair scores above -1.0.
   */
  function Greedy(scores: seq<Scores>, matched: Assignment, used: set<Persona>): (r: (Assignment, set<Persona>))
    requires Matching(scores, matched, used)
    ensures Matching(scores, r.0, r.1)
    ensures |r.0| == |scores| || |r.1| == 3 || BestPick(scores, r.0, r.1).None?
    decreases 3 - |used|
  {
    AtMostThree(used);
    MatchingBounded(scores, matched);
    if |matched| < |scores| && |used| < 3 then
      match BestPick(scores, matched, used)
      case None => (matched, used)
      case Some(pick) =>
        var next := matched[pick.cluster := pick.persona];
        MatchingExtend(scores, matched, used, pick);
        Greedy(scores, next, used + {pick.persona})
    else (matched, used)
  }

  /** A partial matching with fewer entries than clusters leaves some cluster unassigned. */
  lemma SomeClusterFree(scores: seq<Scores>, matched: Assignment)
    requires forall c :: c in matched ==> c < |scores|
    requires |matched| < |scores|
    ensures exists c: nat :: c < |scores| && c !in matched
  {
    if forall c: nat :: c < |scores| ==> c in matched {
      assert Below(|scores|) <= matched.Keys;
      SubsetSize(Below(|scores|), matched.Keys);
      assert false;
    }
  }

  /** The greedy phase never revises a pair it has assigned. */
  lemma {:induction false} GreedyKeepsPicks(scores: seq<Scores>, matched: Assignment, used: set<Persona>, c: nat)
    requires Matching(scores, matched, used)
    requires c in matched
    ensures c in Greedy(scores, matched, used).0 && Greedy(scores, matched, used).0[c] == matched[c]
    decreases 3 - |used|
  {
    AtMostThree(used);
    if |matched| < |scores| && |used| < 3 {
      var pick := BestPick(scores, matched, used);
      if pick.Some? {
        MatchingExtend(scores, matched, used, pick.value);
        GreedyKeepsPicks(scores, matched[pick.value.cluster := pick.value.persona], used + {pick.value.persona}, c);
      }
    }
  }

  /**
   With scores above -1.0 (persona scores lie in [0, 1]), the greedy phase
   from nothing assigns exactly min(n, 3) clusters, to distinct personas.
   */
  lemma {:induction false} GreedyAssignsMinOfClustersAndPersonas(scores: seq<Scores>, matched: Assignment, used: set<Persona>)
    requires forall c: nat, p :: c < |scores| ==> scores[c].Of(p) > -1.0
    requires Matching(scores, matched, used)
    requires |matched| <= |scores| && |matched| <= 3
    ensures |Greedy(scores, matched, used).0| == if |scores| < 3 then |scores| else 3
    decreases 3 - |used|
  {
    MatchingSize(scores, matched, used);
    AtMostThree(used);
    if |matched| < |scores| && |used| < 3 {
      SomeClusterFree(scores, matched);
      var c: nat :| c < |scores| && c !in matched;
      var p :| p !in used;
      assert Open(scores, matched, used, c, p);
      var pick := BestPick(scores, matched, used);
      assert pick.Some?;
      var next := matched[pick.value.cluster := pick.value.persona];
      var nextUsed := used + {pick.value.persona};
      MatchingExtend(scores, matched, used, pick.value);
      assert Greedy(scores, matched, used) == Greedy(scores, next, nextUsed);
      assert |next| == |matched| + 1;
      GreedyAssignsMinOfClustersAndPersonas(scores, next, nextUsed);
    } else {
      assert Greedy(scores, matched, used) == (matched, used);
    }
  }

  /** In a matching, as many personas are used as clusters are matched. */
  lemma {:induction false} MatchingSize(scores: seq<Scores>, matched: Assignment, used: set<Persona>)
    requires Matching(scores, matched, used)
    ensures |matched| == |used|
    decreases |matched|
  {
    if |matched| > 0 {
      var c :| c in matched;
      var rest := matched - {c};
      var p := matched[c];
      assert rest.Values == used - {p} by {
        forall q | q in used - {p} ensures q in rest.Values {
          var a :| a in matched && matched[a] == q;
          assert a != c;
          assert rest[a] == q;
        }
      }
      MatchingSize(scores, rest, used - {p});
    }
  }

  /**
   The completion pass over clusters from position `c` on: every cluster not
   yet matched gets its highest-scoring persona; matched ones keep theirs.
   */
  function Complete(scores: seq<Scores>, matched: Assignment, c: nat): (r: Assignment)
    requires c <= |scores|
    ensures forall k :: k in r <==> k in matched || c <= k < |scores|
    ensures forall k :: k in matched ==> r[k] == matched[k]
    ensures forall k :: c <= k < |scores| && k !in matched ==> r[k] == ArgMax(scores[k])
    decreases |scores| - c
  {
    if c == |scores| then matched
    else if c in matched then Complete(scores, matched, c + 1)
    else Complete(scores, matched[c := ArgMax(scores[c])], c + 1)
  }

  /** Greedy phase, then completion: the persona of every cluster. */
  function Assign(scores: seq<Scores>): (r: Assignment)
    ensures forall c: nat :: c in r <==> c < |scores|
  {
    var greedy := Greedy(scores, map[], {});
    assert forall c :: c in greedy.0 ==> c < |scores|;
    Complete(scores, greedy.0, 0)
  }

  /** The persona looked up for a cluster, with the "gift" default of the lookup. */
  function PersonaOf(assignment: Assignment, c: nat): Persona {
    if c in assignment then assignment[c] else Gift
  }

  /**
   What the matching promises: every cluster has a persona (the lookup default
   is never used); a cluster the greedy phase matched keeps its persona and
   those personas are pairwise distinct; every other cluster gets its
   highest-scoring persona.
   */
  lemma AssignContract(scores: seq<Scores>)
    ensures var greedy := Greedy(scores, map[], {}).0;
      && (forall c: nat :: c < |scores| ==> c in Assign(scores))
      && (forall c :: c in greedy ==> Assign(scores)[c] == greedy[c])
      && (forall a, b :: a in greedy && b in greedy && a != b ==> greedy[a] != greedy[b])
      && (forall c: nat :: c < |scores| && c !in greedy ==> Assign(scores)[c] == ArgMax(scores[c]))
  {
  }

  /**
   With scores above -1.0 and at most three clusters, the greedy phase
   assigns every cluster, so all clusters get distinct personas.
   */
  lemma FewClustersGetDistinctPersonas(scores: seq<Scores>)
    requires |scores| <= 3
    requires forall c: nat, p :: c < |scores| ==> scores[c].Of(p) > -1.0
    ensures forall a: nat, b: nat :: a < b < |scores| ==> Assign(scores)[a] != Assign(scores)[b]
  {
    var greedy := Greedy(scores, map[], {}).0;
    GreedyAssignsMinOfClustersAndPersonas(scores, map[], {});
    assert greedy.Keys <= Below(|scores|);
    SameSizeSubset(greedy.Keys, Below(|scores|));
    AssignContract(scores);
    forall a: nat, b: nat | a < b < |scores| ensures Assign(scores)[a] != Assign(scores)[b] {
      assert a in Below(|scores|) && b in Below(|scores|);
    }
  }

  /** A subset as large as its superset is the whole superset. */
  lemma SameSizeSubset<T>(a: set<T>, b: set<T>)
    requires a <= b && |a| == |b|
    ensures a == b
  {
    if a != b {
      assert exists y :: y in b && y !in a;
      var x :| x in b && x !in a;
      SubsetSize(a, b - {x});
    }
  }
}

=== FILE: ranking.dfy ===
/**
 Ranking of records by a real-valued key: a descending sort that keeps
 records with equal keys in their original order (as Python's
 `list.sort(key=..., reverse=True)` does), and the first-k view of a list
 (Python's `head(k)` / `[:k]`).
 */
module Ranking {

  /** `s` is non-increasing in `key`. */
  predicate SortedDesc<T>(s: seq<T>, key: T -> real) {
    forall i, j :: 0 <= i < j < |s| ==> key(s[i]) >= key(s[j])
  }

  /** The records of `s` whose key is `v`, in their order in `s`. */
  function WithKey<T>(s: seq<T>, key: T -> real, v: real): (r: seq<T>)
    ensures |r| <= |s|
  {
    if |s| == 0 then []
    else (if key(s[0]) == v then [s[0]] else []) + WithKey(s[1..], key, v)
  }

  /** Every record of `s` has a key of at most `b`. */
  predicate KeysAtMost<T>(s: seq<T>, key: T -> real, b: real) {
    forall i :: 0 <= i < |s| ==> key(s[i]) <= b
  }

  /**
   Inserts `x` before the first record whose key is not above `key(x)`: the
   records ranked strictly higher stay in front of it.
   */
  function Insert<T>(x: T, s: seq<T>, key: T -> real): (r: seq<T>)
    ensures multiset(r) == multiset(s) + multiset{x}
    ensures |r| == |s| + 1
  {
    if |s| == 0 then [x]
    else if key(s[0]) > key(x) then
      assert s == [s[0]] + s[1..];
      [s[0]] + Insert(x, s[1..], key)
    else
      [x] + s
  }

  lemma {:induction false} InsertKeysAtMost<T>(x: T, s: seq<T>, key: T -> real, b: real)
    requires key(x) <= b && KeysAtMost(s, key, b)
    ensures KeysAtMost(Insert(x, s, key), key, b)
  {
    if |s| > 0 && key(s[0]) > key(x) {
      InsertKeysAtMost(x, s[1..], key, b);
    }
  }

  /** Inserting into a descending list keeps it descending. */
  lemma {:induction false} InsertSorted<T>(x: T, s: seq<T>, key: T -> real)
    requires SortedDesc(s, key)
    ensures SortedDesc(Insert(x, s, key), key)
  {
    if |s| > 0 && key(s[0]) > key(x) {
      InsertSorted(x, s[1..], key);
      InsertKeysAtMost(x, s[1..], key, key(s[0]));
    }
  }

  /** Sorts `s` by `key`, highest first, keeping ties in their original order. */
  function SortDesc<T>(s: seq<T>, key: T -> real): (r: seq<T>)
    ensures multiset(r) == multiset(s)
    ensures |r| == |s|
    ensures SortedDesc(r, key)
  {
    if |s| == 0 then []
    else
      assert s == [s[0]] + s[1..];
      var rest := SortDesc(s[1..], key);
      InsertSorted(s[0], rest, key);
      Insert(s[0], rest, key)
  }

  /** Inserting `x` places it ahead of every record with the same key. */
  lemma {:induction false} InsertWithKey<T>(x: T, s: seq<T>, key: T -> real, v: real)
    ensures WithKey(Insert(x, s, key), key, v)
         == (if key(x) == v then [x] else []) + WithKey(s, key, v)
  {
    if |s| > 0 && key(s[0]) > key(x) {
      var tail := Insert(x, s[1..], key);
      InsertWithKey(x, s[1..], key, v);
      assert Insert(x, s, key) == [s[0]] + tail;
      WithKeyCons(s[0], tail, key, v);
      assert s == [s[0]] + s[1..];
      WithKeyCons(s[0], s[1..], key, v);
      var w := WithKey(s[1..], key, v);
      if key(x) == v {
        assert WithKey(Insert(x, s, key), key, v) == [x] + w;
      } else if key(s[0]) == v {
        assert WithKey(Insert(x, s, key), key, v) == [s[0]] + w;
      } else {
        assert WithKey(Insert(x, s, key), key, v) == w;
      }
    } else {
      assert Insert(x, s, key) == [x] + s;
      WithKeyCons(x, s, key, v);
    }
  }

  lemma WithKeyCons<T>(h: T, t: seq<T>, key: T -> real, v: real)
    ensures WithKey([h] + t, key, v) == (if key(h) == v then [h] else []) + WithKey(t, key, v)
  {
    assert ([h] + t)[1..] == t;
  }

  /**
   The sort is stable: for every key value, the records carrying it appear
   in the output in the order they had in the input.
   */
  lemma {:induction false} SortDescStable<T>(s: seq<T>, key: T -> real, v: real)
    ensures WithKey(SortDesc(s, key), key, v) == WithKey(s, key, v)
  {
    if |s| > 0 {
      SortDescStable(s[1..], key, v);
      InsertWithKey(s[0], SortDesc(s[1..], key), key, v);
    }
  }

  /** Python's `s[:k]` / pandas `head(k)`: the first min(k, |s|) records. */
  function Take<T>(s: seq<T>, k: nat): (r: seq<T>)
    ensures |r| == if |s| < k then |s| else k
    ensures forall i :: 0 <= i < |r| ==> r[i] == s[i]
  {
    if |s| < k then s else s[..k]
  }

  /**
   Taking the first k records of a descending sort selects k records of
   highest key: every record left out ranks no higher than any taken one.
   */
  lemma TopIsMaximal<T>(s: seq<T>, key: T -> real, k: nat)
    ensures multiset(Take(SortDesc(s, key), k)) <= multiset(s)
    ensures forall e, t ::
              e in multiset(s) - multiset(Take(SortDesc(s, key), k)) && t in Take(SortDesc(s, key), k)
              ==> key(e) <= key(t)
  {
    var sorted := SortDesc(s, key);
    var top := Take(sorted, k);
    var rest := sorted[|top|..];
    assert sorted == top + rest;
    assert multiset(sorted) == multiset(top) + multiset(rest);
    forall e, t | e in multiset(s) - multiset(top) && t in top
      ensures key(e) <= key(t)
    {
      assert e in multiset(rest);
      var j :| 0 <= j < |rest| && rest[j] == e;
      var i :| 0 <= i < |top| && top[i] == t;
      assert sorted[|top| + j] == e;
    }
  }
}

=== FILE: segmentation.dfy ===
/**
 The customer-segmentation script: picks a segmentation mode, clusters the
 customers with the pre-trained model of that mode, scores every cluster
 against three personas from the min-max-normalised cluster averages,
 matches personas to clusters, and reports the segments ranked by score.

 Clustering itself (scaler and k-means model) and the per-cluster averages
 are inputs: `ClusterStat` holds what grouping the predicted labels yields.
 */
module Segmentation {
  import opened Common
  import opened Text
  import opened Ranking
  import opened PersonaMatching

  // ---------------------------------------------------------------------------
  // Modes and the model of each mode
  // ---------------------------------------------------------------------------

  datatype Mode = Behavior | Campaign | Engagement

  function ModeName(m: Mode): string {
    match m
    case Behavior => "behavior"
    case Campaign => "campaign"
    case Engagement => "engagement"
  }

  const ModeNames: seq<string> := ["behavior", "campaign", "engagement"]

  /**
   The mode argument, lower-cased; an absent or unknown mode is "behavior".
   */
  function ParseMode(arg: Option<string>): (m: Mode)
    ensures arg.Some? && Lower(arg.value) in ModeNames ==> ModeName(m) == Lower(arg.value)
    ensures !(arg.Some? && Lower(arg.value) in ModeNames) ==> m == Behavior
  {
    match arg
    case None => Behavior
    case Some(a) =>
      var mode := Lower(a);
      if mode == "campaign" then Campaign
      else if mode == "engagement" then Engagement
      else Behavior
  }

  datatype Feature =
    | Age | MonthlySpend | AvgOrderValue | OrdersPerMonth | VisitsPerMonth | CategoryPreferenceScore

  function ColumnOf(f: Feature): Column {
    match f
    case Age => "age"
    case MonthlySpend => "monthly_spend"
    case AvgOrderValue => "avg_order_value"
    case OrdersPerMonth => "orders_per_month"
    case VisitsPerMonth => "visits_per_month"
    case CategoryPreferenceScore => "category_preference_score"
  }

  /** The columns every input table must have, whatever the mode. */
  const RequiredColumns: seq<Column> :=
    ["age", "monthly_spend", "avg_order_value", "orders_per_month", "visits_per_month", "category_preference_score"]

  /** The features the model of each mode was trained on. */
  function ModeFeatures(m: Mode): seq<Feature> {
    match m
    case Behavior => [MonthlySpend, AvgOrderValue, OrdersPerMonth, VisitsPerMonth]
    case Campaign => [MonthlySpend, AvgOrderValue, OrdersPerMonth]
    case Engagement => [Age, VisitsPerMonth, CategoryPreferenceScore]
  }

  /** The file-name prefix of each mode's scaler and model. */
  function ModelPrefix(m: Mode): string {
    match m
    case Behavior => "segmentation"
    case Campaign => "campaign_segmentation"
    case Engagement => "engagement_segmentation"
  }

  /**
   The up-front column check covers every mode: a table that passes it has
   every column the chosen mode's model reads. Distinct modes load distinct
   model files.
   */
  lemma ModeModelsAreCovered(m: Mode, columns: set<Column>)
    requires MissingColumns(RequiredColumns, columns) == []
    ensures forall i :: 0 <= i < |ModeFeatures(m)| ==> ColumnOf(ModeFeatures(m)[i]) in columns
    ensures forall n: Mode :: n != m ==> ModelPrefix(n) != ModelPrefix(m)
  {
    assert forall i :: 0 <= i < |RequiredColumns| ==> RequiredColumns[i] in columns;
    assert RequiredColumns[0] == ColumnOf(Age) && RequiredColumns[1] == ColumnOf(MonthlySpend);
    assert RequiredColumns[2] == ColumnOf(AvgOrderValue) && RequiredColumns[3] == ColumnOf(OrdersPerMonth);
    assert RequiredColumns[4] == ColumnOf(VisitsPerMonth) && RequiredColumns[5] == ColumnOf(CategoryPreferenceScore);
    assert |ModelPrefix(Behavior)| == 12 && |ModelPrefix(Campaign)| == 21 && |ModelPrefix(Engagement)| == 23;
  }

  // ---------------------------------------------------------------------------
  // Persona scoring
  // ---------------------------------------------------------------------------

  /** What grouping the customers by predicted cluster yields for one cluster. */
  datatype ClusterStat = ClusterStat(
    cluster: int,
    count: nat,
    avgAge: real,
    avgMonthlySpend: real,
    avgOrderValue: real,
    avgOrdersPerMonth: real,
    avgVisitsPerMonth: real,
    avgCategoryPreferenceScore: real)

  /** The cluster average of a feature. */
  function Average(c: ClusterStat, f: Feature): real {
    match f
    case Age => c.avgAge
    case MonthlySpend => c.avgMonthlySpend
    case AvgOrderValue => c.avgOrderValue
    case OrdersPerMonth => c.avgOrdersPerMonth
    case VisitsPerMonth => c.avgVisitsPerMonth
    case CategoryPreferenceScore => c.avgCategoryPreferenceScore
  }

  /** The averages of one feature across all clusters, in cluster order. */
  function Averages(stats: seq<ClusterStat>, f: Feature): (xs: seq<real>)
    ensures |xs| == |stats|
    ensures forall i :: 0 <= i < |stats| ==> xs[i] == Average(stats[i], f)
  {
    seq(|stats|, i requires 0 <= i < |stats| => Average(stats[i], f))
  }

  /** Python's `min` of a non-empty list. */
  function MinOf(xs: seq<real>): (m: real)
    requires |xs| > 0
    ensures m in xs
    ensures forall i :: 0 <= i < |xs| ==> m <= xs[i]
  {
    if |xs| == 1 then xs[0]
    else
      var rest := MinOf(xs[1..]);
      if xs[0] <= rest then xs[0] else rest
  }

  /** Python's `max` of a non-empty list. */
  function MaxOf(xs: seq<real>): (m: real)
    requires |xs| > 0
    ensures m in xs
    ensures forall i :: 0 <= i < |xs| ==> xs[i] <= m
  {
    if |xs| == 1 then xs[0]
    else
      var rest := MaxOf(xs[1..]);
      if xs[0] >= rest then xs[0] else rest
  }

  /**
   Min-max normalisation of `v` into the range [lo, hi]; a degenerate range
   maps everything to 0.5.
   */
  function MinMaxNorm(v: real, lo: real, hi: real): (r: real)
    ensures hi == lo ==> r == 0.5
    ensures lo < hi && lo <= v <= hi ==> 0.0 <= r <= 1.0
    ensures lo < hi ==> (r == 0.0 <==> v == lo) && (r == 1.0 <==> v == hi)
  {
    if hi == lo then 0.5
    else
      var q := (v - lo) / (hi - lo);
      if lo < hi then QuotientFacts(v - lo, hi - lo); q else q
  }

  /** The quotient facts normalisation relies on. */
  lemma QuotientFacts(x: real, d: real)
    requires d > 0.0
    ensures 0.0 <= x ==> 0.0 <= x / d
    ensures x <= d ==> x / d <= 1.0
    ensures x / d == 0.0 <==> x == 0.0
    ensures x / d == 1.0 <==> x == d
  {
    assert (x / d) * d == x;
  }

  lemma ProductSign(x: real, d: real)
    requires d > 0.0 && x * d >= 0.0
    ensures x >= 0.0
  {
  }

  /** Normalisation keeps the order of the values of one range. */
  lemma MinMaxNormMonotone(u: real, v: real, lo: real, hi: real)
    requires lo < hi && u <= v
    ensures MinMaxNorm(u, lo, hi) <= MinMaxNorm(v, lo, hi)
  {
    var d := hi - lo;
    var a, b := (u - lo) / d, (v - lo) / d;
    assert a * d == u - lo && b * d == v - lo;
    assert (b - a) * d == v - u;
    ProductSign(b - a, d);
  }

  /** The normalised average of feature `f` of cluster `i`, over the range of all clusters. */
  function Normalised(stats: seq<ClusterStat>, i: nat, f: Feature): (r: real)
    requires i < |stats|
    ensures 0.0 <= r <= 1.0
  {
    var xs := Averages(stats, f);
    MinMaxNorm(xs[i], MinOf(xs), MaxOf(xs))
  }

  /**
   The persona scores from the normalised spend (s), order value (a),
   orders (o), visits (v) and category preference (p).
   */
  function PersonaScores(s: real, a: real, o: real, v: real, p: real): Scores {
    Scores((s + a + o) / 3.0, (v + p) / 2.0, ((1.0 - o) + (1.0 - v) + s) / 3.0)
  }

  /** Scores of normalised inputs are themselves in [0, 1]. */
  lemma PersonaScoresInUnitInterval(s: real, a: real, o: real, v: real, p: real)
    requires 0.0 <= s <= 1.0 && 0.0 <= a <= 1.0 && 0.0 <= o <= 1.0
    requires 0.0 <= v <= 1.0 && 0.0 <= p <= 1.0
    ensures forall q :: 0.0 <= PersonaScores(s, a, o, v, p).Of(q) <= 1.0
  {
  }

  /** The persona scores of every cluster; each lies in [0, 1]. */
  function ClusterScores(stats: seq<ClusterStat>): (scores: seq<Scores>)
    ensures |scores| == |stats|
    ensures forall i, q :: 0 <= i < |stats| ==> 0.0 <= scores[i].Of(q) <= 1.0
  {
    seq(|stats|, i requires 0 <= i < |stats| => ClusterScore(stats, i))
  }

  /** The persona scores of cluster `i` from its normalised averages. */
  function ClusterScore(stats: seq<ClusterStat>, i: nat): (scores: Scores)
    requires i < |stats|
    ensures forall q :: 0.0 <= scores.Of(q) <= 1.0
  {
    var s := Normalised(stats, i, MonthlySpend);
    var a := Normalised(stats, i, AvgOrderValue);
    var o := Normalised(stats, i, OrdersPerMonth);
    var v := Normalised(stats, i, VisitsPerMonth);
    var p := Normalised(stats, i, CategoryPreferenceScore);
    PersonaScoresInUnitInterval(s, a, o, v, p);
    PersonaScores(s, a, o, v, p)
  }

  // ---------------------------------------------------------------------------
  // Segments
  // ---------------------------------------------------------------------------

  /** One reported segment. */
  datatype Segment = Segment(
    cluster: int,
    persona: Persona,
    personaKey: string,
    displayName: string,
    score: real,
    count: nat,
    percentage: real,
    avgAge: real,
    avgMonthlySpend: real,
    avgOrderValue: real,
    avgOrdersPerMonth: real,
    avgVisitsPerMonth: real,
    avgCategoryPreferenceScore: real)

  function SegmentScore(s: Segment): real {
    s.score
  }

  /** The share of all customers in a cluster, in percent; 0 for no customers. */
  function Percentage(count: nat, total: nat): (r: real)
    ensures total > 0 ==> r * (total as real) == (count as real) * 100.0
    ensures total > 0 && count <= total ==> 0.0 <= r <= 100.0
    ensures total == 0 ==> r == 0.0
  {
    if total > 0 then (count as real / total as real) * 100.0 else 0.0
  }

  /** The segment reporting cluster `c` under persona `p`. */
  function MakeSegment(c: ClusterStat, scores: Scores, p: Persona, total: nat): Segment {
    Segment(c.cluster, p, Key(p), DisplayName(p), scores.Of(p), c.count, Percentage(c.count, total),
            c.avgAge, c.avgMonthlySpend, c.avgOrderValue, c.avgOrdersPerMonth, c.avgVisitsPerMonth,
            c.avgCategoryPreferenceScore)
  }

  /**
   One segment per cluster, in cluster order, under the persona the matching
   gave it ("gift" for a cluster it left out), carrying that persona's key,
   name and score and the cluster's own count.
   */
  function BuildSegments(stats: seq<ClusterStat>, scores: seq<Scores>, assignment: Assignment, total: nat): (segments: seq<Segment>)
    requires |scores| == |stats|
    ensures |segments| == |stats|
    ensures forall i :: 0 <= i < |stats| ==>
      && segments[i].cluster == stats[i].cluster
      && segments[i].count == stats[i].count
      && segments[i].percentage == Percentage(stats[i].count, total)
      && segments[i].avgAge == stats[i].avgAge
      && segments[i].avgMonthlySpend == stats[i].avgMonthlySpend
      && segments[i].avgOrderValue == stats[i].avgOrderValue
      && segments[i].avgOrdersPerMonth == stats[i].avgOrdersPerMonth
      && segments[i].avgVisitsPerMonth == stats[i].avgVisitsPerMonth
      && segments[i].avgCategoryPreferenceScore == stats[i].avgCategoryPreferenceScore
      && (i in assignment ==> segments[i].persona == assignment[i])
      && (i !in assignment ==> segments[i].persona == Gift)
    ensures forall i :: 0 <= i < |stats| ==>
      && segments[i].personaKey == Key(segments[i].persona)
      && segments[i].displayName == DisplayName(segments[i].persona)
      && segments[i].score == scores[i].Of(segments[i].persona)
    ensures (forall i, q :: 0 <= i < |scores| ==> 0.0 <= scores[i].Of(q) <= 1.0) ==>
      forall i :: 0 <= i < |segments| ==> 0.0 <= segments[i].score <= 1.0
    ensures forall i :: 0 <= i < |stats| && 0 < total && stats[i].count <= total ==>
      0.0 <= segments[i].percentage <= 100.0
  {
    seq(|stats|, i requires 0 <= i < |stats| => MakeSegment(stats[i], scores[i], PersonaOf(assignment, i), total))
  }

  datatype SegmentationResult = SegmentationResult(mode: string, totalCustomers: nat, segments: seq<Segment>)

  /**
   Persona matching and ranking over the per-cluster statistics of `total`
   customers: one segment per cluster, each labelled with the persona the
   matching gave it and scored by that persona's score, ranked by score.
   */
  function SegmentClusters(mode: Mode, total: nat, stats: seq<ClusterStat>): (r: SegmentationResult)
    ensures r.mode == ModeName(mode)
    ensures |stats| == 0 ==> r.totalCustomers == 0 && r.segments == []
    ensures |stats| > 0 ==> r.totalCustomers == total
    ensures |r.segments| == |stats|
    ensures SortedDesc(r.segments, SegmentScore)
    ensures forall j :: 0 <= j < |r.segments| ==> 0.0 <= r.segments[j].score <= 1.0
    ensures multiset(r.segments)
         == multiset(BuildSegments(stats, ClusterScores(stats), Assign(ClusterScores(stats)), total))
  {
    if |stats| == 0 then SegmentationResult(ModeName(mode), 0, [])
    else
      var scores := ClusterScores(stats);
      var built := BuildSegments(stats, scores, Assign(scores), total);
      var ranked := SortDesc(built, SegmentScore);
      PermutationKeepsBounds(built, ranked);
      SegmentationResult(ModeName(mode), total, ranked)
  }

  /** Reordering segments keeps every score within [0, 1]. */
  lemma PermutationKeepsBounds(built: seq<Segment>, ranked: seq<Segment>)
    requires multiset(ranked) == multiset(built)
    requires forall i :: 0 <= i < |built| ==> 0.0 <= built[i].score <= 1.0
    ensures forall j :: 0 <= j < |ranked| ==> 0.0 <= ranked[j].score <= 1.0
  {
    forall j | 0 <= j < |ranked| ensures 0.0 <= ranked[j].score <= 1.0 {
      assert ranked[j] in multiset(built);
    }
  }

  /**
   Segments of equal score keep their cluster order (the list sort is
   stable), and with at most three clusters no two clusters share a persona.
   */
  lemma SegmentClustersOrderAndDistinctness(mode: Mode, total: nat, stats: seq<ClusterStat>, v: real)
    requires |stats| > 0
    ensures var scores := ClusterScores(stats);
      WithKey(SegmentClusters(mode, total, stats).segments, SegmentScore, v)
      == WithKey(BuildSegments(stats, scores, Assign(scores), total), SegmentScore, v)
    ensures var built := BuildSegments(stats, ClusterScores(stats), Assign(ClusterScores(stats)), total);
      |stats| <= 3 ==> forall a, b :: 0 <= a < b < |stats| ==> built[a].persona != built[b].persona
  {
    var scores := ClusterScores(stats);
    var built := BuildSegments(stats, scores, Assign(scores), total);
    SortDescStable(built, SegmentScore, v);
    if |stats| <= 3 {
      FewClustersGetDistinctPersonas(scores);
      forall a, b | 0 <= a < b < |stats| ensures built[a].persona != built[b].persona {
        assert a in Assign(scores) && b in Assign(scores);
      }
    }
  }

  // ---------------------------------------------------------------------------
  // Entry point
  // ---------------------------------------------------------------------------

  /** One row of the customer table, as far as the script reads it. */
  datatype CustomerRow = CustomerRow(
    age: real,
    monthlySpend: real,
    avgOrderValue: real,
    ordersPerMonth: real,
    visitsPerMonth: real,
    categoryPreferenceScore: real)

  /**
   What clustering the table with one mode's scaler and model yields: the
   statistics of each predicted cluster, in ascending cluster order, or the
   text of the exception raised.
   */
  datatype Clustering = Clustered(stats: seq<ClusterStat>) | ClusteringFailed(message: string)

  /** The mode a command line asks for; `args` excludes the script name. */
  function ModeArg(args: seq<string>): Mode {
    ParseMode(if |args| >= 2 then Some(args[1]) else None)
  }

  /** The error reported when a mode's scaler or model file is absent. */
  function ModelFilesMessage(m: Mode, modelsDir: string): string {
    "Model or scaler not found for mode '" + ModeName(m) + "'. Expected:\n  "
    + modelsDir + "/" + ModelPrefix(m) + "_scaler.pkl\n  "
    + modelsDir + "/" + ModelPrefix(m) + "_model.pkl"
  }

  /** The table is readable and has every required column. */
  predicate InputAccepted(args: seq<string>, csvExists: bool, csv: CsvRead<CustomerRow>) {
    |args| > 0 && csvExists && csv.Table? && MissingColumns(RequiredColumns, csv.columns) == []
  }

  /**
   The segmentation script's entry point. The file system and the
   pre-trained models are parameters: whether the CSV file exists, what
   reading it yields, whether each mode's model files exist under
   `modelsDir`, and what clustering the table with each mode's model yields.
   */
  function SegmentMain(args: seq<string>, csvExists: bool, csv: CsvRead<CustomerRow>, modelsDir: string,
                       modelFilesPresent: Mode -> bool, clustering: Mode -> Clustering)
    : (r: Outcome<SegmentationResult>)
    ensures |args| == 0 ==> r == Error("No CSV file path provided")
    ensures |args| > 0 && !csvExists ==> r == Error("File not found: " + args[0])
    ensures |args| > 0 && csvExists && csv.Unreadable? ==> r.Uncaught?
    ensures |args| > 0 && csvExists && csv.Table? && MissingColumns(RequiredColumns, csv.columns) != [] ==>
      r == Error("Missing columns: " + Join(MissingColumns(RequiredColumns, csv.columns), ", "))
    ensures InputAccepted(args, csvExists, csv) && !modelFilesPresent(ModeArg(args)) ==>
      r == Error(ModelFilesMessage(ModeArg(args), modelsDir))
    ensures (InputAccepted(args, csvExists, csv) && modelFilesPresent(ModeArg(args))
             && clustering(ModeArg(args)).ClusteringFailed?) ==>
      r == Error(clustering(ModeArg(args)).message)
    ensures r.Ok? <==>
      (InputAccepted(args, csvExists, csv) && modelFilesPresent(ModeArg(args)) && clustering(ModeArg(args)).Clustered?)
    ensures r.Ok? ==> r.value == SegmentClusters(ModeArg(args), |csv.rows|, clustering(ModeArg(args)).stats)
    ensures r.Ok? ==>
      && r.value.mode == ModeName(ModeArg(args))
      && |r.value.segments| == |clustering(ModeArg(args)).stats|
      && (|r.value.segments| > 0 ==> r.value.totalCustomers == |csv.rows|)
  {
    if |args| == 0 then Error("No CSV file path provided")
    else
      var mode := ModeArg(args);
      if !csvExists then Error("File not found: " + args[0])
      else match csv
        case Unreadable(_) => Uncaught
        case Table(columns, rows) =>
          var missing := MissingColumns(RequiredColumns, columns);
          if missing != [] then Error("Missing columns: " + Join(missing, ", "))
          else if !modelFilesPresent(mode) then Error(ModelFilesMessage(mode, modelsDir))
          else match clustering(mode)
            case ClusteringFailed(message) => Error(message)
            case Clustered(stats) => Ok(SegmentClusters(mode, |rows|, stats))
  }
}

=== FILE: text.dfy ===
/**
 String operations the scripts rely on, over Dafny strings (`seq<char>`):
 ASCII lower-casing, substring containment, splitting on a separator
 character and joining, and decimal rendering of integers.
 */
module Text {

  /** Python's `str.lower()` on one character, restricted to ASCII letters. */
  function LowerChar(c: char): char {
    if 'A' <= c <= 'Z' then (c as int + 32) as char else c
  }

  /** Python's `str.lower()`, restricted to ASCII letters. */
  function Lower(s: string): (r: string)
    ensures |r| == |s|
    ensures forall i :: 0 <= i < |s| ==> r[i] == LowerChar(s[i])
  {
    seq(|s|, i requires 0 <= i < |s| => LowerChar(s[i]))
  }

  /** Lower-casing twice is lower-casing once. */
  lemma LowerIdempotent(s: string)
    ensures Lower(Lower(s)) == Lower(s)
  {
    assert forall i :: 0 <= i < |s| ==> LowerChar(LowerChar(s[i])) == LowerChar(s[i]);
  }

  /** True when `sub` occurs as a contiguous part of `s` (Python's `sub in s`). */
  predicate Contains(s: string, sub: string)
    decreases |s|
  {
    |sub| <= |s| && (s[..|sub|] == sub || Contains(s[1..], sub))
  }

  /** True when `sub` occurs in `s` starting at position `i`. */
  predicate OccursAt(s: string, sub: string, i: int) {
    0 <= i <= |s| - |sub| && s[i..i + |sub|] == sub
  }

  /** `Contains` agrees with the positional definition of a substring. */
  lemma {:induction false} ContainsAt(s: string, sub: string)
    ensures Contains(s, sub) <==> exists i :: OccursAt(s, sub, i)
    decreases |s|
  {
    if |sub| <= |s| {
      if s[..|sub|] != sub {
        ContainsAt(s[1..], sub);
        if Contains(s[1..], sub) {
          var i :| OccursAt(s[1..], sub, i);
          assert OccursAt(s, sub, i + 1);
        }
        if exists i :: OccursAt(s, sub, i) {
          var i :| OccursAt(s, sub, i);
          assert i != 0;
          assert OccursAt(s[1..], sub, i - 1);
        }
      } else {
        assert OccursAt(s, sub, 0);
      }
    }
  }

  /** Python's `any(w in s for w in words)`. */
  predicate ContainsAny(s: string, words: seq<string>) {
    exists i :: 0 <= i < |words| && Contains(s, words[i])
  }

  /** Number of occurrences of `c` in `s`. */
  function Count(s: string, c: char): nat {
    if |s| == 0 then 0 else (if s[0] == c then 1 else 0) + Count(s[1..], c)
  }

  /** Position of the first occurrence of `c` in `s`. */
  function IndexOf(s: string, c: char): (k: nat)
    requires c in s
    ensures k < |s| && s[k] == c && c !in s[..k]
  {
    if s[0] == c then 0 else 1 + IndexOf(s[1..], c)
  }

  /**
   Python's `s.split(sep)` with an explicit one-character separator: the
   maximal separator-free pieces between occurrences of `sep`, empty pieces
   included (so the empty string splits into one empty piece).
   */
  function Split(s: string, sep: char): (pieces: seq<string>)
    ensures |pieces| >= 1
    ensures forall i :: 0 <= i < |pieces| ==> sep !in pieces[i]
    decreases |s|
  {
    if sep !in s then [s]
    else
      var k := IndexOf(s, sep);
      [s[..k]] + Split(s[k + 1..], sep)
  }

  /** Python's `sep.join(pieces)`. */
  function Join(pieces: seq<string>, sep: string): string {
    if |pieces| == 0 then ""
    else if |pieces| == 1 then pieces[0]
    else pieces[0] + sep + Join(pieces[1..], sep)
  }

  /** Splitting yields one more piece than there are separators. */
  lemma {:induction false} SplitCount(s: string, sep: char)
    ensures |Split(s, sep)| == Count(s, sep) + 1
    decreases |s|
  {
    if sep !in s {
      CountAbsent(s, sep);
    } else {
      var k := IndexOf(s, sep);
      SplitCount(s[k + 1..], sep);
      CountAround(s, sep, k);
      CountAbsent(s[..k], sep);
    }
  }

  lemma {:induction false} CountAbsent(s: string, c: char)
    requires c !in s
    ensures Count(s, c) == 0
  {
    if |s| > 0 {
      assert s[0] != c;
      CountAbsent(s[1..], c);
    }
  }

  /** Counting a character in a concatenation adds up the counts of the parts. */
  lemma {:induction false} CountConcat(a: string, b: string, c: char)
    ensures Count(a + b, c) == Count(a, c) + Count(b, c)
  {
    if |a| > 0 {
      assert (a + b)[1..] == a[1..] + b;
      CountConcat(a[1..], b, c);
    } else {
      assert a + b == b;
    }
  }

  lemma {:induction false} CountAround(s: string, c: char, k: nat)
    requires k < |s| && s[k] == c
    ensures Count(s, c) == Count(s[..k], c) + 1 + Count(s[k + 1..], c)
  {
    if k > 0 {
      CountAround(s[1..], c, k - 1);
      assert s[1..][..k - 1] == s[..k][1..];
      assert s[1..][k..] == s[k + 1..];
    } else {
      assert s[1..] == s[k + 1..];
    }
  }

  /** Joining the pieces of a split with the separator gives back the string. */
  lemma {:induction false} JoinSplit(s: string, sep: char)
    ensures Join(Split(s, sep), [sep]) == s
    decreases |s|
  {
    if sep in s {
      var k := IndexOf(s, sep);
      var rest := Split(s[k + 1..], sep);
      JoinSplit(s[k + 1..], sep);
      assert Split(s, sep) == [s[..k]] + rest;
      assert ([s[..k]] + rest)[1..] == rest;
      assert s == s[..k] + [sep] + s[k + 1..];
    }
  }

  /** Splitting the join of separator-free pieces gives back the pieces. */
  lemma {:induction false} SplitJoin(pieces: seq<string>, sep: char)
    requires |pieces| >= 1
    requires forall i :: 0 <= i < |pieces| ==> sep !in pieces[i]
    ensures Split(Join(pieces, [sep]), sep) == pieces
  {
    if |pieces| > 1 {
      var tail := Join(pieces[1..], [sep]);
      var s := pieces[0] + [sep] + tail;
      assert Join(pieces, [sep]) == s;
      SplitAtFirst(pieces[0], sep, tail);
      SplitJoin(pieces[1..], sep);
      assert pieces == [pieces[0]] + pieces[1..];
    }
  }

  /** A separator-free prefix followed by the separator is the first piece of a split. */
  lemma SplitAtFirst(head: string, sep: char, tail: string)
    requires sep !in head
    ensures Split(head + [sep] + tail, sep) == [head] + Split(tail, sep)
  {
    var s := head + [sep] + tail;
    assert s[|head|] == sep;
    var k := IndexOf(s, sep);
    assert s[..|head|] == head;
    assert forall j :: 0 <= j < |head| ==> s[j] == head[j];
    assert k == |head|;
    assert s[..k] == head;
    assert s[k + 1..] == tail;
  }

  /** The decimal digit character of `d`. */
  function DigitChar(d: nat): char
    requires d < 10
  {
    "0123456789"[d]
  }

  /** The value of a decimal digit character. */
  function DigitValue(c: char): nat {
    if '0' <= c <= '9' then c as int - '0' as int else 0
  }

  predicate IsDigits(s: string) {
    forall i :: 0 <= i < |s| ==> '0' <= s[i] <= '9'
  }

  /** Python's `str(n)` for a non-negative integer. */
  function NatToString(n: nat): (r: string)
    ensures |r| >= 1 && IsDigits(r)
  {
    if n < 10 then [DigitChar(n)] else NatToString(n / 10) + [DigitChar(n % 10)]
  }

  /** The number a string of decimal digits denotes. */
  function DecimalValue(s: string): nat {
    if |s| == 0 then 0 else 10 * DecimalValue(s[..|s| - 1]) + DigitValue(s[|s| - 1])
  }

  /** Reading back a rendered natural number gives the number. */
  lemma {:induction false} DecimalRoundTrip(n: nat)
    ensures DecimalValue(NatToString(n)) == n
  {
    var r := NatToString(n);
    if n >= 10 {
      DecimalRoundTrip(n / 10);
      assert r[..|r| - 1] == NatToString(n / 10);
    }
  }

  /** Distinct naturals render as distinct strings. */
  lemma NatToStringInjective(m: nat, n: nat)
    requires m != n
    ensures NatToString(m) != NatToString(n)
  {
    DecimalRoundTrip(m);
    DecimalRoundTrip(n);
  }

  /** Python's `str(k)` (or an f-string `{k}`) for any integer. */
  function IntToString(k: int): (r: string)
    ensures |r| >= 1
    ensures k < 0 <==> r[0] == '-'
  {
    if k < 0 then "-" + NatToString(-k) else NatToString(k)
  }
}
